=== FILE: README.md ===
# smallsh in Dafny

A model of `smallsh`, a small interactive Unix shell. The shell repeats one cycle:

1. It reaps finished background jobs.
2. It prints the prompt `: ` and reads a line.
3. It tokenizes the line into a command with optional `<`/`>` redirections and a `&` flag.
4. It runs the built-ins `exit`, `cd` and `status` itself.
5. Anything else it forks, and either waits for the child or records it as a background job.

SIGINT redraws the prompt. SIGTSTP toggles foreground-only mode, in which `&` is ignored.

The repository holds two drafts of the same shell:

- The split draft: `smallsh.c`, `parser.c`, `commands.c`, `signals.c`.
- The single-file draft: `villafla_assignment4.c`.

The model covers both, and the operations where the drafts differ take a `Draft` parameter. Only two differences are visible from the parent:

- `exit` sends SIGTERM to the job table only in the split draft.
- A foreground child killed by a signal is reported at once only in the single-file draft.

In the split draft, `smallsh.c` calls the built-in dispatcher, the launcher and the signal handlers by the single-file draft's names. The model binds those calls to the definitions in `commands.c` and `signals.c`.

Modules, one file each:

| file | module | models |
|---|---|---|
| types.dfy | `ShellTypes` | `struct command_line`, the wait status, the job table `bg_pids`/`bg_count`, and the globals |
| decimal.dfy | `Decimal` | `%d` formatting and its reader |
| messages.dfy | `Messages` | the status report and the two background-job notices, each with a parser |
| parser.dfy | `Parser` | `parse_input`: the NUL cut-off, `strtok` on `" \n"`, grouping of operators with their operands, folding into the command, and the token loop as a method |
| signals.dfy | `Signals` | the SIGTSTP and SIGINT handlers |
| jobs.dfy | `Jobs` | the reap loop at the top of `main`, with its swap-with-last removal |
| builtins.dfy | `Builtins` | the built-in dispatcher |
| launcher.dfy | `Launcher` | the parent's side of fork/wait and job registration |
| shell.dfy | `Shell` | one loop iteration, and sessions of lines interleaved with signals |

The outside world enters as parameters, not as effects:

- the line `fgets` returns (`None` at end of input);
- the result of `waitpid(..., WNOHANG)` for each pid (`poll`);
- `getenv("HOME")`;
- whether `chdir` succeeds;
- what `fork` returns;
- how a waited-for foreground child ends.

The output is the text written to stdout. The wait status word is abstracted to `Exited(code)` or `Signaled(signal)`.

## Model

| member | source | states |
|---|---|---|
| Decimal.NatToString | commands.c:23 | `%d` of a non-negative number is a canonical digit string: non-empty, digits only, no leading zero |
| Decimal.IntToString | smallsh.c:36 | `%d` of a pid is canonical digits, with a single leading minus for negative values |
| Decimal.NatToStringRoundTrip | commands.c:23 | the digits printed for a number have that number as their value |
| Decimal.CanonicalRoundTrip | commands.c:23 | every canonical digit string is exactly what `%d` prints for its value |
| Decimal.IntToStringRoundTrip | commands.c:72 | every printed int, negative or not, reads back as the same int |
| Messages.StatusText | commands.c:21-29 | the report "exit value N" or "terminated by signal N" names both how the child ended and the number, so it reads back to the exact status |
| Messages.StatusTextInjective | villafla_assignment4.c:118-126 | two different outcomes never print the same report |
| Messages.BackgroundStarted | commands.c:71-73 | the notice "background pid is P" reads back to the pid P, for every pid |
| Messages.JobDone | smallsh.c:35-39 | the notice "background pid P is done: ..." is a single line ending in a newline, and it reads back to both the pid and the status |
| Parser.CString | parser.c:12-22 | the tokenizer sees only the prefix of the buffer before the first NUL, and that prefix has no NUL |
| Parser.WordLength | parser.c:22-33 | a token runs up to the next space or newline and contains neither |
| Parser.Tokens | parser.c:22-33 | every token `strtok` yields is non-empty and free of delimiters |
| Parser.TokensKeepText | parser.c:22-33 | tokenizing loses no text: the tokens joined together are the line with its spaces and newlines removed |
| Parser.TokensOfUnwords | parser.c:22-33 | words joined by single spaces tokenize back into the same words |
| Parser.DelimitersOnly | parser.c:22-23 | a line of spaces and newlines yields no token |
| Parser.Group | parser.c:24-32 | grouping pairs each `<` and `>` with the token after it, so plain words are never operators |
| Parser.SpellGroup | parser.c:24-32 | grouping loses nothing: spelling the items back gives the tokens |
| Parser.GroupSpell | parser.c:24-32 | spelling items out and grouping again gives the same items |
| Parser.LastRedirect | parser.c:24-27 | a redirection target is absent iff no such operator occurs, and otherwise it is the target of the last one |
| Parser.FoldFields | parser.c:23-34 | from any start, the loop appends the plain words in order, lets the last redirection win, and sets background iff `&` is read as a token of its own, not as the operand of `<` or `>` |
| Parser.Build | parser.c:22-35 | the command's argv is the plain words in order, its files are the last `<` and `>` targets, and it is background iff `&` is read as a token of its own, not as the operand of `<` or `>` |
| Parser.PlainTokens | parser.c:30-31 | a line without operators becomes exactly its words as argv |
| Parser.ScanTokens | parser.c:22-35 | the C token loop computes the command `Build` describes, with argc within MAX_ARGS |
| Parser.ParseInput | parser.c:12-20 | end of input is reported as such; a line is skipped iff it begins with `#` or a newline |
| Parser.ExecArgv | parser.c:35 | the vector passed to execvp holds argv in order followed by a NULL at index argc |
| Parser.TypedWords | villafla_assignment4.c:62-89 | a typed line of plain words ending in a newline parses to those words, with no redirections and in the foreground |
| Parser.NulFreeCString | parser.c:12-22 | a buffer without NUL is tokenized whole |
| Parser.BlankButNotSkipped | parser.c:17-35 | a line of blanks that starts with a space is not skipped; it parses to the empty command |
| Signals.OnStop | signals.c:10-21 | SIGTSTP sets the mode to 1 iff it was 0; it announces entering or leaving the mode and redraws the prompt |
| Signals.OnInterrupt | signals.c:4-7 | SIGINT changes no state and writes a newline and the prompt |
| Signals.OnStopTwice | signals.c:12-18 | two stop signals restore mode 0 or 1, and turn any other nonzero value into 1 |
| Signals.TogglesParity | villafla_assignment4.c:227-240 | after n stop signals the mode is 0 or 1, and it equals the start iff n is even |
| Signals.NoticesAlternate | villafla_assignment4.c:230-236 | successive stop signals print different notices |
| Jobs.Append | commands.c:74 | registering a job appends exactly its pid to the live entries |
| Jobs.ReapFrom | smallsh.c:31-44 | each removal shrinks the live count by one, and the array keeps its size |
| Jobs.SwapRemove | smallsh.c:42 | moving the last entry into slot i and dropping the count removes exactly slot i's pid |
| Jobs.ReapFromMultiset | smallsh.c:31-44 | the pids left plus the pids reaped are exactly the pids that were live |
| Jobs.ReapFromOnlyFinished | smallsh.c:33-34 | only jobs whose non-blocking wait reported them finished are reaped, each with that status |
| Jobs.ReapPassFacts | smallsh.c:31-44 | one pass keeps the table valid and conserves the job multiset; it reaps only finished jobs, and a running job keeps every entry |
| Jobs.LoopFromIsPass | smallsh.c:31-44 | the loop run from any array, count, index and reports so far ends with the table the pass describes, and with the reports so far followed by the pass's reports |
| Jobs.ReapLoop | smallsh.c:31-44 | the for loop over the array and its count computes the pass: same table, same reports in the same order. The count drops by one per report, and the pids left plus the pids reported are the pids that were live |
| Jobs.RemoveAt | smallsh.c:34-43 | removing a finished job drops the count by one and keeps every pid either live or reported, and the loop then goes on as the pass describes |
| Jobs.ReportsRoundTrip | smallsh.c:34-40 | the pass prints one notice line per reaped job, in reaping order, and the lines read back to exactly those jobs and statuses |
| Jobs.ReapBackground | smallsh.c:31-44 | the reap loop keeps the table valid and lowers its count by one per report. It conserves the job multiset and reports only finished jobs, each with its status |
| Jobs.MovedJobWaitsForNextPass | smallsh.c:42-43 | when both of two jobs have finished, one pass reaps only the first; the job moved into slot 0 is reaped on the next pass |
| Jobs.ReapFromProgress | smallsh.c:31-34 | a pass that meets a finished job reaps at least one |
| Jobs.NothingToReap | smallsh.c:31-34 | when no job from index i on has finished, the rest of the pass removes and reports nothing |
| Jobs.NoFinishedStays | smallsh.c:29-44 | a table with no finished job is left exactly as it is by any number of passes |
| Jobs.FinishedJobsReapedWithinCountPasses | smallsh.c:29-44 | after as many back-to-back passes as there were live jobs, each pass seeing the same wait outcomes and no launch in between, no finished job is left in the table |
| Builtins.RunBuiltin | commands.c:4-32 | `exit` gives the exit result, `cd` the directory change and `status` the report, each iff argv[0] is that name; anything else, and the empty command, is not a built-in. `exit` ends with 0; the split draft signals every live job, the single-file draft none. `cd` clears `&` and goes to argv[1] or HOME, failing iff the target is missing or chdir fails. `status` writes one line that reads back to the last status |
| Builtins.StatusReportsLastForeground | commands.c:21-29 | `status` prints "exit value N" after a normal exit and "terminated by signal N" after a signal death |
| Builtins.InitialStatus | smallsh.c:6 | a fresh shell answers `status` with "exit value 0" |
| Builtins.CdGoesToArgumentOrHome | commands.c:14-19 | `cd DIR ...` goes to DIR whatever HOME holds, and fails iff chdir fails; `cd` alone with HOME unset has no target and fails |
| Builtins.CdWithoutArgumentGoesHome | commands.c:14-19 | `cd` alone targets HOME, and is handled even when chdir fails |
| Launcher.Launch | commands.c:35-81 | fork failure ends the shell with 1. Foreground-only mode cancels `&`. A background child is announced and appended to the table, with the status unchanged. A foreground child's status becomes the last status, with the table unchanged. Only the single-file draft prints a signal death at once |
| Launcher.BackgroundFollowsStops | commands.c:36 | from mode 0, after n stop signals a command goes to the background iff it asked for `&` and n is even |
| Launcher.ForegroundOnlyAddsNoJob | villafla_assignment4.c:135-138 | in foreground-only mode a launch never adds a job, and the child's status is recorded |
| Launcher.LaunchTableGrowth | commands.c:71-79 | the job multiset grows by exactly the new pid for a background launch, and not at all otherwise |
| Launcher.StatusAfterLaunch | villafla_assignment4.c:196-213 | after a launch `status` reports the foreground child's ending; a background launch leaves it as it was |
| Shell.Iteration | smallsh.c:29-51 | the loop ends the shell iff input ends, `exit` is typed, or fork fails. It never changes the mode. The live jobs afterwards are those the reap pass left, plus the pid of a background launch. |
| Shell.IterationStatus | commands.c:7-81 | the last status becomes the child's exactly when a foreground child was launched and waited for, and is kept otherwise. `exit` ends the shell with 0; a failed fork ends it with 1 and signals no job |
| Shell.StatusLinePrintsStatus | commands.c:21-29 | a `status` line writes, after the reports and the prompt, exactly the report of the last foreground status and a newline, and changes nothing but the reaped table |
| Shell.CdLineWritesNothing | commands.c:14-19 | a `cd` line writes nothing to stdout after the prompt and changes nothing but the reaped table |
| Shell.ExitWritesNothing | commands.c:7-12 | an iteration that ends the shell on a line, through `exit` or a failed fork, writes nothing after the prompt |
| Shell.LaunchOutput | commands.c:71-79 | a launched command writes the background notice for a background child. A foreground child gets nothing, except that the single-file draft reports a signal death at once |
| Shell.ForegroundThenStatus | smallsh.c:46-51 | a foreground command whose child ends with c, followed by `status`, makes the second line print exactly the report of c |
| Shell.ReportsPrecedePrompt | smallsh.c:30-46 | completion notices are written before the prompt, and both before anything the command prints |
| Shell.EndOfInputExits | parser.c:12-15 | at end of input the shell writes a newline and exits with 0, signalling no job |
| Shell.SkippedLineOnlyReaps | smallsh.c:46-47 | a comment or empty line only reaps |
| Shell.ExitAccountsForEveryJob | commands.c:7-12 | at `exit` in the split draft, every job in the table when `exit` is read is, exactly once, either reported by that line's reap or sent SIGTERM |
| Shell.SingleFileExitKillsNothing | villafla_assignment4.c:97-101 | the single-file draft's `exit` signals no job |
| Shell.IterationJobs | smallsh.c:31-51 | the jobs after an iteration plus the jobs reaped are the jobs before, plus the pid of a background launch |
| Shell.ForegroundOnlyAddsNoJobs | commands.c:36 | in foreground-only mode an iteration only removes jobs |
| Shell.Deliver | smallsh.c:15-27 | only a line can end the shell; only SIGTSTP changes the mode |
| Shell.Run | smallsh.c:29-61 | a session keeps the job table valid |
| Shell.ModeFollowsStops | signals.c:10-21 | the mode at the end of a session is the start toggled once per stop signal, whatever lines ran |
| Shell.ForegroundOnlySessionAddsNoJobs | commands.c:36 | in foreground-only mode with no stop signal, a whole session never adds a job |

## Left out

- The child's side of fork is not modelled: SIGINT and SIGTSTP dispositions, `open`/`dup2` redirection, the `/dev/null` defaults of the single-file draft, `execvp`, and the `perror` exits with 1. A child appears only through the status it ends with.
- The wait status bit layout is not modelled, nor `WEXITSTATUS`/`WTERMSIG`. A status that is neither exited nor signalled cannot arise in the model, so the single-file draft's "leave the status unchanged" branch is absent.
- Signal delivery is taken only between loop iterations. Handlers preempting the reap loop, `fgets` or a foreground wait, and `SA_RESTART`, are not modelled.
- Text written to stderr is not modelled: the `perror` messages of `cd` and fork come from the C library.
- `fgets` splitting a line longer than 2047 characters (the 2048-byte buffer of parser.c:6) into several reads is not modelled. Each input line is one read.
- Memory allocation and the `free` calls are not modelled.
- Undefined behaviour is excluded by preconditions (`Parser.Parsable`, `Shell.Defined`). These cover a `<` or `>` with no operand, which would `strdup(NULL)`; more than 512 plain words, which overflows argv; and a background launch into a full `bg_pids`.
- Shell.Iteration: its own contract states nothing about the output or the last status. `Shell.ReportsPrecedePrompt` proves that the output begins with the reports and then the prompt. What follows is stated case by case in `Shell.IterationStatus`, `Shell.EndOfInputExits`, `Shell.SkippedLineOnlyReaps`, `Shell.StatusLinePrintsStatus`, `Shell.CdLineWritesNothing`, `Shell.ExitWritesNothing` and `Shell.LaunchOutput`.

## Notes on the code

The model follows the code in each of these places, where the code's behaviour is easy to misread:

- A failed fork ends the whole shell with exit code 1, because the parent calls `exit(1)` (commands.c:39-42, villafla_assignment4.c:142-145). `Launcher.Launch` models exactly that.
- A `&` read as a token of its own sets background wherever it stands on the line, not only at the end (parser.c:28-29). A `&` right after `<` or `>` is a file name instead (parser.c:24-27).
- The comments at smallsh.c:47 and villafla_assignment4.c:68 speak of ignoring blank lines. The test at parser.c:17 only catches a line whose first byte is a newline. A line of spaces parses to a command with no words: the dispatcher declines it (commands.c:5) and the launcher forks it. `Parser.BlankButNotSkipped` states this.
- The comment at villafla_assignment4.c:98 says background processes are terminated before exiting, but no `kill` follows in that draft. `Shell.SingleFileExitKillsNothing` states this.

=== FILE: builtins.dfy ===
// The built-in dispatcher: builtin_commands (commands.c) and
// handle_builtin_commands (villafla_assignment4.c).
//
// getenv("HOME") and chdir are inputs: the value of HOME if it is set,
// and whether chdir succeeds for a given target.

module Builtins {
  import opened ShellTypes
  import opened Messages
  import opened Jobs

  /** The exit code the exit built-in ends the shell with. */
  const EXIT_SUCCESS: int := 0

  /** What the dispatcher did. NotBuiltin is the `false` return with no
      effect; ExitShell never returns (kill, then exit); ChangeDir and
      ReportStatus are the `true` returns. */
  datatype BuiltinResult =
    | NotBuiltin
    | ExitShell(code: int, terminated: seq<int>)
    | ChangeDir(cmd: Command, target: Option<string>, failed: bool)
    | ReportStatus(output: string)
  {
    /** The dispatcher's boolean result, for the cases where it returns. */
    predicate Handled() {
      ChangeDir? || ReportStatus?
    }
  }

  predicate IsBuiltinName(name: string) {
    name == "exit" || name == "cd" || name == "status"
  }

  /** The directory cd goes to: argv[1] if given, else HOME (None if HOME is unset). */
  function CdTarget(cmd: Command, home: Option<string>): Option<string> {
    if cmd.Argc() > 1 then Some(cmd.argv[1]) else home
  }

  /** The dispatcher. The exit built-in of the split draft sends SIGTERM to
      the live jobs; the single-file draft's exit kills nothing. */
  function RunBuiltin(draft: Draft, st: ShellState, cmd: Command, home: Option<string>, chdir: string -> bool)
    : (r: BuiltinResult)
    requires ValidTable(st.table)
    ensures r.NotBuiltin? <==> cmd.Argc() == 0 || !IsBuiltinName(cmd.argv[0])
    ensures r.Handled() <==> cmd.Argc() > 0 && (cmd.argv[0] == "cd" || cmd.argv[0] == "status")
    ensures r.ExitShell? <==> cmd.Argc() > 0 && cmd.argv[0] == "exit"
    ensures r.ChangeDir? <==> cmd.Argc() > 0 && cmd.argv[0] == "cd"
    ensures r.ReportStatus? <==> cmd.Argc() > 0 && cmd.argv[0] == "status"
    ensures r.ExitShell? ==> r.code == EXIT_SUCCESS
    ensures r.ExitShell? && draft == Modular ==> r.terminated == st.table.slots[..st.table.count]
    ensures r.ExitShell? && draft == SingleFile ==> r.terminated == []
    ensures r.ChangeDir? ==>
      && r.cmd == cmd.(isBg := false)
      && r.target == CdTarget(cmd, home)
      && (r.target.Some? && cmd.Argc() > 1 ==> r.target.value == cmd.argv[1])
      && (r.failed <==> r.target.None? || !chdir(r.target.value))
    ensures r.ReportStatus? ==>
      && |r.output| >= 1 && r.output[|r.output| - 1] == '\n'
      && ParseStatusText(r.output[..|r.output| - 1]) == Some(st.lastStatus)
  {
    if cmd.Argc() == 0 then NotBuiltin
    else if cmd.argv[0] == "exit" then
      ExitShell(EXIT_SUCCESS, if draft == Modular then Live(st.table) else [])
    else if cmd.argv[0] == "cd" then
      var target := CdTarget(cmd, home);
      ChangeDir(cmd.(isBg := false), target, target.None? || !chdir(target.value))
    else if cmd.argv[0] == "status" then
      var output := StatusText(st.lastStatus) + "\n";
      assert output[..|output| - 1] == StatusText(st.lastStatus);
      ReportStatus(output)
    else NotBuiltin
  }

  /** `status` prints "exit value N" after a normal exit and "terminated by
      signal N" after a signal death, each on its own line. */
  lemma StatusReportsLastForeground(draft: Draft, st: ShellState, args: seq<string>, home: Option<string>, chdir: string -> bool)
    requires ValidTable(st.table)
    ensures var r := RunBuiltin(draft, st, Command(["status"] + args, None, None, false), home, chdir);
      && r.ReportStatus?
      && (st.lastStatus.Exited? ==> r.output == "exit value " + Decimal.NatToString(st.lastStatus.code) + "\n")
      && (st.lastStatus.Signaled? ==> r.output == "terminated by signal " + Decimal.NatToString(st.lastStatus.signal) + "\n")
  {
  }

  /** A freshly started shell answers `status` with "exit value 0". */
  lemma InitialStatus(draft: Draft, t: Table, mode: int, home: Option<string>, chdir: string -> bool)
    requires ValidTable(t)
    ensures RunBuiltin(draft, ShellState(INITIAL_STATUS, mode, t), Command(["status"], None, None, false), home, chdir)
      == ReportStatus("exit value 0\n")
  {
  }

  /** `cd` with an argument goes there whatever HOME holds; `cd` alone with
      HOME unset has no target and fails. */
  lemma CdGoesToArgumentOrHome(draft: Draft, st: ShellState, dir: string, rest: seq<string>, bg: bool,
                               home: Option<string>, chdir: string -> bool)
    requires ValidTable(st.table)
    ensures RunBuiltin(draft, st, Command(["cd", dir] + rest, None, None, bg), home, chdir)
      == ChangeDir(Command(["cd", dir] + rest, None, None, false), Some(dir), !chdir(dir))
    ensures RunBuiltin(draft, st, Command(["cd"], None, None, bg), None, chdir)
      == ChangeDir(Command(["cd"], None, None, false), None, true)
  {
  }

  /** `cd` with no argument goes to HOME; cd always reports handled, even when chdir fails. */
  lemma CdWithoutArgumentGoesHome(draft: Draft, st: ShellState, bg: bool, home: string, chdir: string -> bool)
    requires ValidTable(st.table)
    ensures var r := RunBuiltin(draft, st, Command(["cd"], None, None, bg), Some(home), chdir);
      r.Handled() && r.ChangeDir? && r.target == Some(home) && !r.cmd.isBg && (r.failed <==> !chdir(home))
  {
  }
}

=== FILE: decimal.dfy ===
// Decimal rendering of integers, as printf's %d writes them, and the
// matching reader, so that printed messages can be decoded again.

module Decimal {
  import opened ShellTypes

  predicate IsDigit(c: char) {
    '0' <= c <= '9'
  }

  predicate AllDigits(s: string) {
    forall k :: 0 <= k < |s| ==> IsDigit(s[k])
  }

  /** A digit string as %d prints it: non-empty, no leading zero unless it is "0". */
  predicate Canonical(s: string) {
    |s| >= 1 && AllDigits(s) && (|s| > 1 ==> s[0] != '0')
  }

  function DigitChar(d: nat): (c: char)
    requires d < 10
    ensures IsDigit(c)
  {
    (d + '0' as int) as char
  }

  function DigitValue(c: char): (d: nat)
    requires IsDigit(c)
    ensures d < 10
  {
    c as int - '0' as int
  }

  /** The value of a digit string, most significant digit first. */
  function DigitsValue(s: string): nat
    requires AllDigits(s)
  {
    if s == [] then 0 else DigitsValue(s[..|s| - 1]) * 10 + DigitValue(s[|s| - 1])
  }

  /** %d of a non-negative number. */
  function NatToString(n: nat): (s: string)
    ensures Canonical(s)
  {
    if n < 10 then [DigitChar(n)] else NatToString(n / 10) + [DigitChar(n % 10)]
  }

  /** %d of any int: a minus sign in front of a negative value. */
  function IntToString(i: int): (s: string)
    ensures |s| >= 1
    ensures i >= 0 ==> Canonical(s)
    ensures i < 0 ==> s[0] == '-' && Canonical(s[1..])
  {
    if i < 0 then "-" + NatToString(-i) else NatToString(i)
  }

  /** Reads a canonical digit string; anything else is rejected. */
  function ParseNat(s: string): (r: Option<nat>)
    ensures r.Some? <==> Canonical(s)
    ensures r.Some? ==> NatToString(r.value) == s
  {
    if Canonical(s) then
      CanonicalRoundTrip(s);
      Some(DigitsValue(s))
    else None
  }

  /** Reads what IntToString writes: an optional minus sign and a canonical
      digit string; "-0" is rejected because %d never prints it. */
  function ParseInt(s: string): Option<int> {
    if |s| >= 2 && s[0] == '-' then
      match ParseNat(s[1..])
      case Some(n) => if n == 0 then None else Some(-(n as int))
      case None => None
    else
      match ParseNat(s)
      case Some(n) => Some(n as int)
      case None => None
  }

  lemma {:induction false} NatToStringRoundTrip(n: nat)
    ensures DigitsValue(NatToString(n)) == n
    decreases n
  {
    if n >= 10 {
      var s := NatToString(n);
      assert s[..|s| - 1] == NatToString(n / 10);
      NatToStringRoundTrip(n / 10);
    }
  }

  /** A canonical digit string of two or more digits has a value of at least 10. */
  lemma {:induction false} CanonicalValueAtLeastTen(s: string)
    requires Canonical(s) && |s| >= 2
    ensures DigitsValue(s) >= 10
    decreases |s|
  {
    var p := s[..|s| - 1];
    assert p[0] == s[0];
    if |p| >= 2 {
      CanonicalValueAtLeastTen(p);
    } else {
      assert DigitsValue(p) == DigitValue(s[0]) >= 1;
    }
  }

  /** The other direction: every canonical digit string is what %d prints for its value. */
  lemma {:induction false} CanonicalRoundTrip(s: string)
    requires Canonical(s)
    ensures NatToString(DigitsValue(s)) == s
    decreases |s|
  {
    if |s| >= 2 {
      var p := s[..|s| - 1];
      assert p[0] == s[0];
      CanonicalValueAtLeastTen(s);
      CanonicalRoundTrip(p);
      var v := DigitsValue(s);
      assert v / 10 == DigitsValue(p);
      assert v % 10 == DigitValue(s[|s| - 1]);
      assert s == p + [s[|s| - 1]];
    }
  }

  /** Decoding what %d wrote gives back the number. */
  lemma IntToStringRoundTrip(i: int)
    ensures ParseInt(IntToString(i)) == Some(i)
  {
    var s := IntToString(i);
    if i < 0 {
      assert s[1..] == NatToString(-i);
      assert ParseNat(s[1..]) == Some(-i) by {
        NatToStringRoundTrip(-i);
      }
    } else {
      assert IsDigit(s[0]);
      assert ParseNat(s) == Some(i) by {
        NatToStringRoundTrip(i);
      }
    }
  }
}

=== FILE: jobs.dfy ===
// The background job table and the reap pass run before every prompt.
//
// The table is the fixed array bg_pids[MAX_ARGS] with bg_count live
// entries. The pass walks the live entries with a non-blocking wait;
// a finished entry is reported and overwritten by the last live entry,
// the count drops by one, and the index moves on, so the entry that was
// moved into the slot is not looked at again until the next pass.

module Jobs {
  import opened ShellTypes
  import opened Messages

  /** What waitpid(pid, &status, WNOHANG) reports right now: 0 (the child
      is still running), the pid and its status (it has ended), or -1. */
  datatype Poll = Running | Finished(status: WaitStatus) | WaitError

  /** A job removed by the pass, with the status its wait returned. */
  datatype Reaped = Reaped(pid: int, status: WaitStatus)

  /** The table after a pass and the jobs the pass removed, in order. */
  datatype Pass = Pass(table: Table, reaped: seq<Reaped>)

  predicate ValidTable(t: Table) {
    |t.slots| == MAX_ARGS && t.count <= MAX_ARGS
  }

  /** The live entries bg_pids[0..bg_count). */
  function Live(t: Table): seq<int>
    requires t.count <= |t.slots|
  {
    t.slots[..t.count]
  }

  function Pids(reaped: seq<Reaped>): seq<int> {
    if reaped == [] then [] else [reaped[0].pid] + Pids(reaped[1..])
  }

  /** Registers a background child: its pid goes into the first free slot and the count grows by one. */
  function Append(t: Table, pid: int): (r: Table)
    requires ValidTable(t) && t.count < MAX_ARGS
    ensures ValidTable(r)
    ensures Live(r) == Live(t) + [pid]
  {
    var r := Table(t.slots[t.count := pid], t.count + 1);
    assert Live(r) == Live(t) + [pid];
    r
  }

  /** The reap loop from index i on, as the C for loop runs it. */
  function ReapFrom(t: Table, i: nat, poll: int -> Poll): (r: Pass)
    requires t.count <= |t.slots|
    ensures |r.table.slots| == |t.slots|
    ensures r.table.count + |r.reaped| == t.count
    decreases t.count + 1 - i
  {
    if i >= t.count then Pass(t, [])
    else
      match poll(t.slots[i])
      case Finished(status) =>
        var last := t.count - 1;
        var rest := ReapFrom(Table(t.slots[i := t.slots[last]], last), i + 1, poll);
        Pass(rest.table, [Reaped(t.slots[i], status)] + rest.reaped)
      case _ => ReapFrom(t, i + 1, poll)
  }

  /** One pass over the whole table. */
  function ReapPass(t: Table, poll: int -> Poll): Pass
    requires t.count <= |t.slots|
  {
    ReapFrom(t, 0, poll)
  }

  /** The lines the pass prints, one per reaped job, in reaping order. */
  function Reports(reaped: seq<Reaped>): string {
    if reaped == [] then [] else JobDone(reaped[0].pid, reaped[0].status) + Reports(reaped[1..])
  }

  /** Reads a run of completion notices back, one line at a time; any text
      that is not such a run is rejected. */
  function ParseReports(s: string): Option<seq<Reaped>>
    decreases |s|
  {
    if s == [] then Some([])
    else
      var n := FirstNewline(s);
      if n == |s| then None
      else
        match (ParseJobDone(s[..n + 1]), ParseReports(s[n + 1..]))
        case (Some((pid, w)), Some(rest)) => Some([Reaped(pid, w)] + rest)
        case _ => None
  }

  /** The pass's output is one notice line per reaped job, in reaping order:
      reading it back gives exactly the reaped jobs with their statuses. */
  lemma {:induction false} ReportsRoundTrip(reaped: seq<Reaped>)
    ensures ParseReports(Reports(reaped)) == Some(reaped)
    decreases |reaped|
  {
    if reaped != [] {
      ReportsRoundTrip(reaped[1..]);
      ParseReportsCons(reaped[0], reaped[1..]);
      assert reaped == [reaped[0]] + reaped[1..];
    }
  }

  /** One notice line in front of a run that reads back: the line's job
      goes in front of what the run reads back to. */
  lemma ParseReportsCons(x: Reaped, tail: seq<Reaped>)
    requires ParseReports(Reports(tail)) == Some(tail)
    ensures ParseReports(JobDone(x.pid, x.status) + Reports(tail)) == Some([x] + tail)
  {
    var line := JobDone(x.pid, x.status);
    var s := line + Reports(tail);
    FirstNewlineOfLine(line, Reports(tail));
    assert s[..FirstNewline(s) + 1] == line;
  }

  /** Overwriting slot i with the last live entry and dropping the count
      removes exactly the entry of slot i from the live multiset. */
  lemma SwapRemove(s: seq<int>, i: nat, c: nat)
    requires i < c <= |s|
    ensures multiset(s[i := s[c - 1]][..c - 1]) + multiset{s[i]} == multiset(s[..c])
  {
    assert s[..c] == s[..c - 1] + [s[c - 1]];
    if i < c - 1 {
      assert s[i := s[c - 1]][..c - 1] == s[..c - 1][i := s[c - 1]];
    } else {
      assert s[i := s[c - 1]][..c - 1] == s[..c - 1];
    }
  }

  /** The pass only removes: the jobs left plus the jobs reaped are the jobs
      that were live. No job is reaped twice or invented. */
  predicate Conserved(t: Table, r: Pass)
    requires t.count <= |t.slots| && r.table.count <= |r.table.slots|
  {
    multiset(Live(r.table)) + multiset(Pids(r.reaped)) == multiset(Live(t))
  }

  lemma {:induction false} ReapFromMultiset(t: Table, i: nat, poll: int -> Poll)
    requires t.count <= |t.slots|
    ensures Conserved(t, ReapFrom(t, i, poll))
    decreases t.count + 1 - i
  {
    if i >= t.count {
      EmptyPassConserved(t, ReapFrom(t, i, poll));
    } else if poll(t.slots[i]).Finished? {
      ReapFromMultiset(Table(t.slots[i := t.slots[t.count - 1]], t.count - 1), i + 1, poll);
      FinishedConserved(t, i, poll);
    } else {
      ReapFromMultiset(t, i + 1, poll);
      RunningConserved(t, i, poll);
    }
  }

  /** A finished entry at i: the rest of the pass conserving the jobs makes
      the whole pass from i conserve them. */
  lemma FinishedConserved(t: Table, i: nat, poll: int -> Poll)
    requires i < t.count <= |t.slots| && poll(t.slots[i]).Finished?
    requires var next := Table(t.slots[i := t.slots[t.count - 1]], t.count - 1);
      Conserved(next, ReapFrom(next, i + 1, poll))
    ensures Conserved(t, ReapFrom(t, i, poll))
  {
    var next := Table(t.slots[i := t.slots[t.count - 1]], t.count - 1);
    ReapFromStep(t, i, poll);
    RemovalConserved(t, i, poll(t.slots[i]).status, ReapFrom(next, i + 1, poll));
  }

  /** An entry still running at i: the pass from i is the pass from i + 1. */
  lemma RunningConserved(t: Table, i: nat, poll: int -> Poll)
    requires i < t.count <= |t.slots| && !poll(t.slots[i]).Finished?
    requires Conserved(t, ReapFrom(t, i + 1, poll))
    ensures Conserved(t, ReapFrom(t, i, poll))
  {
    ReapFromStep(t, i, poll);
  }

  lemma EmptyPassConserved(t: Table, r: Pass)
    requires t.count <= |t.slots|
    requires r == Pass(t, [])
    ensures Conserved(t, r)
  {
    assert Pids(r.reaped) == [];
  }

  /** One removal step: if the rest of the pass conserves the table left
      after the swap, the whole pass conserves the original table. */
  lemma RemovalConserved(t: Table, i: nat, status: WaitStatus, rest: Pass)
    requires i < t.count <= |t.slots|
    requires rest.table.count <= |rest.table.slots|
    requires Conserved(Table(t.slots[i := t.slots[t.count - 1]], t.count - 1), rest)
    ensures Conserved(t, Pass(rest.table, [Reaped(t.slots[i], status)] + rest.reaped))
  {
    var next := Table(t.slots[i := t.slots[t.count - 1]], t.count - 1);
    PidsCons(Reaped(t.slots[i], status), rest.reaped);
    SwapRemove(t.slots, i, t.count);
    MultisetAfterRemoval(Live(t), Live(next), t.slots[i], Live(rest.table), Pids(rest.reaped));
  }

  lemma {:induction false} PidsSnoc(reaped: seq<Reaped>, x: Reaped)
    ensures Pids(reaped + [x]) == Pids(reaped) + [x.pid]
    decreases |reaped|
  {
    if reaped != [] {
      assert (reaped + [x])[1..] == reaped[1..] + [x];
      PidsSnoc(reaped[1..], x);
    }
  }

  /** The loop's bookkeeping: the live pids plus the pids reported so far
      are the pids that were live when the loop began. */
  predicate Accounted(slots: seq<int>, count: nat, reaped: seq<Reaped>, live: multiset<int>)
    requires count <= |slots|
  {
    multiset(slots[..count]) + multiset(Pids(reaped)) == live
  }

  /** One step of the loop: overwriting slot i and reporting its pid keeps
      the live pids plus the reported pids as they were. */
  lemma RemoveStepConserves(slots: seq<int>, count: nat, i: nat, reaped: seq<Reaped>, x: Reaped, live: multiset<int>)
    requires i < count <= |slots| && x.pid == slots[i]
    requires Accounted(slots, count, reaped, live)
    ensures Accounted(slots[i := slots[count - 1]], count - 1, reaped + [x], live)
  {
    SwapRemove(slots, i, count);
    PidsSnoc(reaped, x);
  }

  lemma PidsCons(x: Reaped, reaped: seq<Reaped>)
    ensures Pids([x] + reaped) == [x.pid] + Pids(reaped)
  {
    assert ([x] + reaped)[1..] == reaped;
  }

  lemma MultisetAfterRemoval(live: seq<int>, next: seq<int>, p: int, left: seq<int>, pids: seq<int>)
    requires multiset(next) + multiset{p} == multiset(live)
    requires multiset(left) + multiset(pids) == multiset(next)
    ensures multiset(left) + multiset([p] + pids) == multiset(live)
  {
    assert multiset([p] + pids) == multiset{p} + multiset(pids);
  }

  /** Every reaped job is one whose wait reported it finished, with that status. */
  predicate AllFinished(reaped: seq<Reaped>, poll: int -> Poll) {
    forall k :: 0 <= k < |reaped| ==> poll(reaped[k].pid) == Finished(reaped[k].status)
  }

  lemma {:induction false} ReapFromOnlyFinished(t: Table, i: nat, poll: int -> Poll)
    requires t.count <= |t.slots|
    ensures AllFinished(ReapFrom(t, i, poll).reaped, poll)
    decreases t.count + 1 - i
  {
    if i < t.count {
      match poll(t.slots[i])
      case Finished(status) =>
        var next := Table(t.slots[i := t.slots[t.count - 1]], t.count - 1);
        ReapFromOnlyFinished(next, i + 1, poll);
        var rest := ReapFrom(next, i + 1, poll).reaped;
        var all := [Reaped(t.slots[i], status)] + rest;
        assert ReapFrom(t, i, poll).reaped == all;
        forall k | 0 <= k < |all|
          ensures poll(all[k].pid) == Finished(all[k].status)
        {
          if k > 0 {
            assert all[k] == rest[k - 1];
          }
        }
      case _ =>
        assert ReapFrom(t, i, poll) == ReapFrom(t, i + 1, poll);
        ReapFromOnlyFinished(t, i + 1, poll);
    }
  }

  lemma {:induction false} PidsMembers(reaped: seq<Reaped>, p: int)
    ensures p in Pids(reaped) <==> exists k :: 0 <= k < |reaped| && reaped[k].pid == p
    decreases |reaped|
  {
    if reaped != [] {
      PidsMembers(reaped[1..], p);
      if p in Pids(reaped[1..]) {
        var k :| 0 <= k < |reaped[1..]| && reaped[1..][k].pid == p;
        assert reaped[k + 1].pid == p;
      }
      if exists k :: 0 <= k < |reaped| && reaped[k].pid == p {
        var k :| 0 <= k < |reaped| && reaped[k].pid == p;
        if k > 0 {
          assert reaped[1..][k - 1].pid == p;
        }
      }
    }
  }

  /** The facts of one whole pass: the table stays valid, the count drops by
      one per reaped job, the live multiset loses exactly the reaped pids,
      only finished jobs are reaped, and a job whose wait does not report it
      finished keeps every one of its entries. */
  lemma ReapPassFacts(t: Table, poll: int -> Poll)
    requires ValidTable(t)
    ensures var r := ReapPass(t, poll);
      && ValidTable(r.table)
      && r.table.count == t.count - |r.reaped|
      && multiset(Live(r.table)) + multiset(Pids(r.reaped)) == multiset(Live(t))
      && (forall k :: 0 <= k < |r.reaped| ==> poll(r.reaped[k].pid) == Finished(r.reaped[k].status))
      && (forall p :: !poll(p).Finished? ==> multiset(Live(r.table))[p] == multiset(Live(t))[p])
  {
    var r := ReapPass(t, poll);
    ReapFromMultiset(t, 0, poll);
    ReapFromOnlyFinished(t, 0, poll);
    forall p | !poll(p).Finished?
      ensures multiset(Live(r.table))[p] == multiset(Live(t))[p]
    {
      PidsMembers(r.reaped, p);
      assert p !in Pids(r.reaped);
    }
  }

  /** One step of the pass at index i, unfolded. */
  lemma ReapFromStep(t: Table, i: nat, poll: int -> Poll)
    requires i < t.count <= |t.slots|
    ensures poll(t.slots[i]).Finished? ==>
      var rest := ReapFrom(Table(t.slots[i := t.slots[t.count - 1]], t.count - 1), i + 1, poll);
      ReapFrom(t, i, poll) == Pass(rest.table, [Reaped(t.slots[i], poll(t.slots[i]).status)] + rest.reaped)
    ensures !poll(t.slots[i]).Finished? ==> ReapFrom(t, i, poll) == ReapFrom(t, i + 1, poll)
  {
  }

  /** The reap loop of main, over the array and its count. */
  method ReapBackground(t: Table, poll: int -> Poll) returns (table: Table, reaped: seq<Reaped>)
    requires ValidTable(t)
    ensures Pass(table, reaped) == ReapPass(t, poll)
    ensures ValidTable(table)
    ensures table.count == t.count - |reaped|
    ensures multiset(Live(table)) + multiset(Pids(reaped)) == multiset(Live(t))
    ensures forall k :: 0 <= k < |reaped| ==> poll(reaped[k].pid) == Finished(reaped[k].status)
  {
    table, reaped := ReapLoop(t, poll);
    ReapPassFacts(t, poll);
  }

  /** The loop's state machine, tail-recursive: the array, the count, the
      index and the reports so far, run to the end of the loop. */
  function LoopFrom(slots: seq<int>, count: nat, i: nat, poll: int -> Poll, acc: seq<Reaped>): Pass
    requires count <= |slots|
    decreases count + 1 - i
  {
    if i >= count then Pass(Table(slots, count), acc)
    else if poll(slots[i]).Finished? then
      LoopFrom(slots[i := slots[count - 1]], count - 1, i + 1, poll, acc + [Reaped(slots[i], poll(slots[i]).status)])
    else
      LoopFrom(slots, count, i + 1, poll, acc)
  }

  /** Running the loop from any state gives what the pass describes from there. */
  lemma {:induction false} LoopFromIsPass(slots: seq<int>, count: nat, i: nat, poll: int -> Poll, acc: seq<Reaped>)
    requires count <= |slots|
    ensures var p := ReapFrom(Table(slots, count), i, poll);
      LoopFrom(slots, count, i, poll, acc) == Pass(p.table, acc + p.reaped)
    decreases count + 1 - i
  {
    if i >= count {
      assert acc + [] == acc;
    } else if poll(slots[i]).Finished? {
      var x := Reaped(slots[i], poll(slots[i]).status);
      var next := slots[i := slots[count - 1]];
      LoopFromIsPass(next, count - 1, i + 1, poll, acc + [x]);
      ReapFromStep(Table(slots, count), i, poll);
      var rest := ReapFrom(Table(next, count - 1), i + 1, poll);
      assert (acc + [x]) + rest.reaped == acc + ([x] + rest.reaped);
    } else {
      LoopFromIsPass(slots, count, i + 1, poll, acc);
      ReapFromStep(Table(slots, count), i, poll);
    }
  }

  /** The loop body at an index whose job has finished: the job is
      reported and its slot overwritten by the last live one. */
  method RemoveAt(slots: seq<int>, count: nat, i: nat, poll: int -> Poll, reaped: seq<Reaped>, ghost live: multiset<int>)
    returns (slots': seq<int>, count': nat, reaped': seq<Reaped>)
    requires i < count <= |slots| && poll(slots[i]).Finished?
    requires Accounted(slots, count, reaped, live)
    ensures count' < count && count' <= |slots'| == |slots|
    ensures count' + |reaped'| == count + |reaped|
    ensures Accounted(slots', count', reaped', live)
    ensures LoopFrom(slots', count', i + 1, poll, reaped') == LoopFrom(slots, count, i, poll, reaped)
  {
    var x := Reaped(slots[i], poll(slots[i]).status);
    RemoveStepConserves(slots, count, i, reaped, x, live);
    slots', count', reaped' := slots[i := slots[count - 1]], count - 1, reaped + [x];
  }

  /** The for loop itself: index i walks up while a finished entry is
      overwritten by the last live one and the count drops. */
  method ReapLoop(t: Table, poll: int -> Poll) returns (table: Table, reaped: seq<Reaped>)
    requires t.count <= |t.slots|
    ensures Pass(table, reaped) == ReapPass(t, poll)
    ensures table.count + |reaped| == t.count
    ensures multiset(table.slots[..table.count]) + multiset(Pids(reaped)) == multiset(Live(t))
  {
    var slots := t.slots;
    var count: nat := t.count;
    reaped := [];
    var i: nat := 0;
    ghost var live := multiset(Live(t));
    while i < count
      invariant count <= |slots| == |t.slots|
      invariant count + |reaped| == t.count
      invariant Accounted(slots, count, reaped, live)
      invariant LoopFrom(slots, count, i, poll, reaped) == LoopFrom(t.slots, t.count, 0, poll, [])
      decreases count + 1 - i
    {
      if poll(slots[i]).Finished? {
        slots, count, reaped := RemoveAt(slots, count, i, poll, reaped, live);
      }
      i := i + 1;
    }
    table := Table(slots, count);
    LoopFromIsPass(t.slots, t.count, 0, poll, []);
    assert Table(t.slots, t.count) == t;
  }

  /** The swap quirk: when the first and the last of two live jobs have both
      finished, one pass reaps only the first; the second was moved into
      slot 0 behind the index and stays until the next pass. */
  lemma MovedJobWaitsForNextPass(t: Table, poll: int -> Poll)
    requires t.count == 2 <= |t.slots|
    requires poll(t.slots[0]).Finished? && poll(t.slots[1]).Finished?
    ensures var r := ReapPass(t, poll);
      && Live(r.table) == [t.slots[1]]
      && r.reaped == [Reaped(t.slots[0], poll(t.slots[0]).status)]
      && ReapPass(r.table, poll).reaped == [Reaped(t.slots[1], poll(t.slots[1]).status)]
  {
    var s := t.slots;
    var moved := Table(s[0 := s[1]], 1);
    assert ReapFrom(moved, 1, poll) == Pass(moved, []);
    assert ReapPass(t, poll) == Pass(moved, [Reaped(s[0], poll(s[0]).status)]);
    assert Live(moved) == [s[1]];
    assert moved.slots[0] == s[1];
    var second := Table(moved.slots[0 := moved.slots[0]], 0);
    assert ReapFrom(second, 1, poll) == Pass(second, []);
  }

  /** A pass that meets a finished job reaps at least one: the first
      finished live entry is always looked at. */
  lemma {:induction false} ReapFromProgress(t: Table, i: nat, poll: int -> Poll)
    requires t.count <= |t.slots|
    requires exists k :: i <= k < t.count && poll(t.slots[k]).Finished?
    ensures |ReapFrom(t, i, poll).reaped| >= 1
    decreases t.count + 1 - i
  {
    if !poll(t.slots[i]).Finished? {
      ReapFromProgress(t, i + 1, poll);
    }
  }

  /** The table after n passes with the same wait outcomes. */
  function ReapPasses(t: Table, poll: int -> Poll, n: nat): (r: Table)
    requires ValidTable(t)
    ensures ValidTable(r)
    decreases n
  {
    if n == 0 then t
    else
      ReapPassFacts(t, poll);
      ReapPasses(ReapPass(t, poll).table, poll, n - 1)
  }

  predicate NoFinishedLive(t: Table, poll: int -> Poll)
    requires t.count <= |t.slots|
  {
    forall k :: 0 <= k < t.count ==> !poll(t.slots[k]).Finished?
  }

  /** With no finished job from index i on, the rest of the pass changes nothing. */
  lemma {:induction false} NothingToReap(t: Table, i: nat, poll: int -> Poll)
    requires t.count <= |t.slots|
    requires forall k :: i <= k < t.count ==> !poll(t.slots[k]).Finished?
    ensures ReapFrom(t, i, poll) == Pass(t, [])
    decreases t.count + 1 - i
  {
    if i < t.count {
      NothingToReap(t, i + 1, poll);
    }
  }

  /** A table with no finished job is a fixed point of the passes. */
  lemma {:induction false} NoFinishedStays(t: Table, poll: int -> Poll, n: nat)
    requires ValidTable(t) && NoFinishedLive(t, poll)
    ensures ReapPasses(t, poll, n) == t
    decreases n
  {
    if n > 0 {
      NothingToReap(t, 0, poll);
      NoFinishedStays(t, poll, n - 1);
      ReapPassesUnfold(t, poll, n);
    }
  }

  /** With the same wait outcomes on every pass and no launch in between,
      as many back-to-back passes as the table had live entries leave no
      finished job, although a single pass may skip some. */
  lemma {:induction false} FinishedJobsReapedWithinCountPasses(t: Table, poll: int -> Poll, n: nat)
    requires ValidTable(t) && n >= t.count
    ensures NoFinishedLive(ReapPasses(t, poll, n), poll)
    decreases n
  {
    if NoFinishedLive(t, poll) {
      NoFinishedStays(t, poll, n);
    } else {
      var r := ReapPass(t, poll);
      assert |r.reaped| >= 1 by {
        var k :| 0 <= k < t.count && poll(t.slots[k]).Finished?;
        ReapFromProgress(t, 0, poll);
      }
      assert ValidTable(r.table) && r.table.count == t.count - |r.reaped| by {
        ReapPassFacts(t, poll);
      }
      FinishedJobsReapedWithinCountPasses(r.table, poll, n - 1);
      ReapPassesUnfold(t, poll, n);
    }
  }

  lemma ReapPassesUnfold(t: Table, poll: int -> Poll, n: nat)
    requires ValidTable(t) && n > 0
    ensures ReapPasses(t, poll, n) == ReapPasses(ReapPass(t, poll).table, poll, n - 1)
  {
  }
}

=== FILE: launcher.dfy ===
// The parent's side of launching an external command:
// execute_other_commands (commands.c) and execute_command
// (villafla_assignment4.c).
//
// fork and waitpid are inputs: what fork returned to the parent, and the
// status a blocking wait on the child would report. What the child does
// between fork and exec (signal dispositions, redirection, execvp) is not
// part of this model; its only trace here is the status it ends with.

module Launcher {
  import opened ShellTypes
  import opened Messages
  import opened Jobs
  import Builtins
  import Signals

  /** The exit code the shell ends with when fork fails. */
  const FORK_FAILURE_CODE: int := 1

  /** What fork returned to the parent: -1, or the pid of a new child. */
  datatype Fork = ForkFailed | Forked(pid: int)

  /** The shell either exits (fork failed) or carries on with a new state,
      the command as the launch left it, and the text written to stdout. */
  datatype LaunchResult =
    | ForkAbort(code: int)
    | Launched(state: ShellState, cmd: Command, output: string)

  /** Whether the command really goes to the background: foreground-only
      mode (any nonzero value) overrides a trailing "&". */
  predicate RunsInBackground(st: ShellState, cmd: Command) {
    cmd.isBg && st.fgOnly == 0
  }

  /** The parent's decisions after fork. A background child is announced
      and appended to the table; a foreground child is waited for and its
      status becomes the last status. Only the single-file draft reports a
      foreground signal death at once. */
  function Launch(draft: Draft, st: ShellState, cmd: Command, fork: Fork, child: WaitStatus): (r: LaunchResult)
    requires ValidTable(st.table)
    requires fork.Forked? && RunsInBackground(st, cmd) ==> st.table.count < MAX_ARGS
    ensures r.ForkAbort? <==> fork.ForkFailed?
    ensures r.ForkAbort? ==> r.code == FORK_FAILURE_CODE
    ensures r.Launched? ==>
      && r.cmd == cmd.(isBg := RunsInBackground(st, cmd))
      && r.state.fgOnly == st.fgOnly
      && ValidTable(r.state.table)
    ensures r.Launched? && r.cmd.isBg ==>
      && Live(r.state.table) == Live(st.table) + [fork.pid]
      && r.state.lastStatus == st.lastStatus
      && r.output == BackgroundStarted(fork.pid)
    ensures r.Launched? && !r.cmd.isBg ==>
      && r.state.table == st.table
      && r.state.lastStatus == child
      && (draft == Modular || child.Exited? ==> r.output == [])
      && (draft == SingleFile && child.Signaled? ==> r.output == StatusText(child) + "\n")
  {
    var cmd' := cmd.(isBg := RunsInBackground(st, cmd));
    match fork
    case ForkFailed => ForkAbort(FORK_FAILURE_CODE)
    case Forked(pid) =>
      if cmd'.isBg then
        Launched(st.(table := Append(st.table, pid)), cmd', BackgroundStarted(pid))
      else
        var output := if draft == SingleFile && child.Signaled? then StatusText(child) + "\n" else [];
        Launched(st.(lastStatus := child), cmd', output)
  }

  /** Starting from mode 0, after n stop signals a launch goes to the
      background iff the command asked for it and n is even. */
  lemma BackgroundFollowsStops(draft: Draft, st: ShellState, cmd: Command, pid: int, child: WaitStatus, n: nat)
    requires ValidTable(st.table) && st.table.count < MAX_ARGS
    requires st.fgOnly == Signals.Toggles(0, n)
    ensures RunsInBackground(st, cmd) <==> cmd.isBg && n % 2 == 0
    ensures Launch(draft, st, cmd, Forked(pid), child).cmd.isBg <==> cmd.isBg && n % 2 == 0
  {
    Signals.TogglesParity(0, n);
  }

  /** In foreground-only mode no launch adds a job, whatever the command asked for. */
  lemma ForegroundOnlyAddsNoJob(draft: Draft, st: ShellState, cmd: Command, fork: Fork, child: WaitStatus)
    requires ValidTable(st.table) && st.fgOnly != 0
    ensures var r := Launch(draft, st, cmd, fork, child);
      r.Launched? ==> !r.cmd.isBg && r.state.table == st.table && r.state.lastStatus == child
  {
  }

  /** The job table only ever grows by the launched child: its multiset
      gains the new pid for a background launch and nothing otherwise. */
  lemma LaunchTableGrowth(draft: Draft, st: ShellState, cmd: Command, fork: Fork, child: WaitStatus)
    requires ValidTable(st.table)
    requires fork.Forked? && RunsInBackground(st, cmd) ==> st.table.count < MAX_ARGS
    ensures var r := Launch(draft, st, cmd, fork, child);
      r.Launched? ==>
        multiset(Live(r.state.table)) ==
          multiset(Live(st.table)) + (if r.cmd.isBg then multiset{fork.pid} else multiset{})
  {
  }

  /** After a foreground child ends, `status` reports exactly how it ended;
      a background launch leaves the reported status as it was. */
  lemma StatusAfterLaunch(draft: Draft, st: ShellState, cmd: Command, pid: int, child: WaitStatus,
                          home: Option<string>, chdir: string -> bool)
    requires ValidTable(st.table)
    requires RunsInBackground(st, cmd) ==> st.table.count < MAX_ARGS
    ensures var r := Launch(draft, st, cmd, Forked(pid), child);
      && r.Launched?
      && var status := Builtins.RunBuiltin(draft, r.state, Command(["status"], None, None, false), home, chdir);
      && status == Builtins.ReportStatus(StatusText(if RunsInBackground(st, cmd) then st.lastStatus else child) + "\n")
      && ParseStatusText(StatusText(r.state.lastStatus)) == Some(if RunsInBackground(st, cmd) then st.lastStatus else child)
  {
    var r := Launch(draft, st, cmd, Forked(pid), child);
  }
}

=== FILE: messages.dfy ===
// The lines the shell prints about children: the status report shared by
// the `status` built-in, the foreground launcher and the job reaper, and
// the background launch and completion notices.

module Messages {
  import opened ShellTypes
  import opened Decimal

  const EXIT_VALUE: string := "exit value "
  const TERMINATED_BY: string := "terminated by signal "
  const STARTED_PREFIX: string := "background pid is "
  const DONE_PREFIX: string := "background pid "
  const DONE_INFIX: string := " is done: "

  /** "exit value N" for a normal exit, "terminated by signal N" for a
      signal death. The report loses nothing: it reads back to the status. */
  function StatusText(w: WaitStatus): (s: string)
    ensures ParseStatusText(s) == Some(w)
  {
    match w
    case Exited(code) =>
      ReportReadsBack(EXIT_VALUE, code);
      EXIT_VALUE + NatToString(code)
    case Signaled(signal) =>
      ReportReadsBack(TERMINATED_BY, signal);
      TERMINATED_BY + NatToString(signal)
  }

  /** "background pid is P\n", printed when a job is detached; it gives the pid back. */
  function BackgroundStarted(pid: int): (s: string)
    ensures ParseBackgroundStarted(s) == Some(pid)
  {
    var s := STARTED_PREFIX + IntToString(pid) + "\n";
    assert s[..|STARTED_PREFIX|] == STARTED_PREFIX;
    assert s[|STARTED_PREFIX|..|s| - 1] == IntToString(pid);
    IntToStringRoundTrip(pid);
    s
  }

  /** "background pid P is done: <status>\n", printed when a job is reaped.
      It is one line, and it gives back both the pid and how the job ended. */
  function JobDone(pid: int, w: WaitStatus): (s: string)
    ensures ParseJobDone(s) == Some((pid, w))
    ensures |s| >= 1 && s[|s| - 1] == '\n' && NoNewline(s[..|s| - 1])
  {
    var body := IntToString(pid) + DONE_INFIX + StatusText(w);
    DonePrefixParts(body);
    DoneBodyOf(pid, w);
    DoneBodyOneLine(pid, w);
    DoneLineParts(body);
    DONE_PREFIX + body + "\n"
  }

  /** Reads a status report back; any other text is rejected. */
  function ParseStatusText(s: string): Option<WaitStatus> {
    if |EXIT_VALUE| <= |s| && s[..|EXIT_VALUE|] == EXIT_VALUE then
      match ParseNat(s[|EXIT_VALUE|..])
      case Some(n) => Some(Exited(n))
      case None => None
    else if |TERMINATED_BY| <= |s| && s[..|TERMINATED_BY|] == TERMINATED_BY then
      match ParseNat(s[|TERMINATED_BY|..])
      case Some(n) => Some(Signaled(n))
      case None => None
    else
      None
  }

  /** Either report prefix followed by a number reads back as that prefix's
      outcome with that number. */
  lemma ReportReadsBack(prefix: string, n: nat)
    requires prefix == EXIT_VALUE || prefix == TERMINATED_BY
    ensures var s := prefix + NatToString(n);
      ParseStatusText(s) == Some(if prefix == EXIT_VALUE then Exited(n) else Signaled(n))
  {
    var s := prefix + NatToString(n);
    assert s[..|prefix|] == prefix;
    assert s[|prefix|..] == NatToString(n);
    if prefix == TERMINATED_BY {
      assert s[0] != EXIT_VALUE[0];
    }
    NatToStringRoundTrip(n);
  }

  /** Two different outcomes never print the same report. */
  lemma StatusTextInjective(v: WaitStatus, w: WaitStatus)
    ensures StatusText(v) == StatusText(w) ==> v == w
  {
  }

  /** No newline anywhere in the text. */
  predicate NoNewline(s: string) {
    forall k :: 0 <= k < |s| ==> s[k] != '\n'
  }

  /** The index of the first newline, or the length when there is none. */
  function FirstNewline(s: string): (n: nat)
    ensures n <= |s|
    ensures NoNewline(s[..n])
    ensures n < |s| ==> s[n] == '\n'
  {
    if s == [] || s[0] == '\n' then 0
    else
      var n := 1 + FirstNewline(s[1..]);
      assert s[..n] == [s[0]] + s[1..][..n - 1];
      n
  }

  lemma NoNewlineAppend(a: string, b: string)
    requires NoNewline(a) && NoNewline(b)
    ensures NoNewline(a + b)
  {
    assert forall k :: 0 <= k < |a| ==> (a + b)[k] == a[k];
    assert forall k :: |a| <= k < |a| + |b| ==> (a + b)[k] == b[k - |a|];
  }

  /** A line followed by anything: the first newline is the line's own. */
  lemma FirstNewlineOfLine(line: string, rest: string)
    requires |line| >= 1 && line[|line| - 1] == '\n' && NoNewline(line[..|line| - 1])
    ensures FirstNewline(line + rest) == |line| - 1
    ensures (line + rest)[..|line|] == line && (line + rest)[|line|..] == rest
  {
    var s := line + rest;
    var n := FirstNewline(s);
    assert forall k :: 0 <= k < |line| - 1 ==> s[k] == line[..|line| - 1][k];
    assert forall k :: 0 <= k < n ==> s[..n][k] == s[k];
    assert s[|line| - 1] == '\n';
  }

  /** The decimal text of an int is one line. */
  lemma IntTextOneLine(i: int)
    ensures NoNewline(IntToString(i))
  {
    var p := IntToString(i);
    if i < 0 {
      assert forall k :: 1 <= k < |p| ==> p[k] == p[1..][k - 1];
    }
  }

  /** A status report is one line. */
  lemma StatusTextOneLine(w: WaitStatus)
    ensures NoNewline(StatusText(w))
  {
    var prefix := if w.Exited? then EXIT_VALUE else TERMINATED_BY;
    var digits := NatToString(if w.Exited? then w.code else w.signal);
    assert StatusText(w) == prefix + digits;
    NoNewlineAppend(prefix, digits);
  }

  /** Neither a number nor a status report holds a newline. */
  lemma DoneBodyOneLine(pid: int, w: WaitStatus)
    ensures NoNewline(IntToString(pid) + DONE_INFIX + StatusText(w))
  {
    IntTextOneLine(pid);
    StatusTextOneLine(w);
    NoNewlineAppend(IntToString(pid), DONE_INFIX);
    NoNewlineAppend(IntToString(pid) + DONE_INFIX, StatusText(w));
  }

  /** A notice's body, between the prefix and the newline, holds no newline. */
  lemma DoneLineParts(body: string)
    requires NoNewline(body)
    ensures var s := DONE_PREFIX + body + "\n";
      |s| >= 1 && s[|s| - 1] == '\n' && NoNewline(s[..|s| - 1])
  {
    var s := DONE_PREFIX + body + "\n";
    assert s[..|s| - 1] == DONE_PREFIX + body;
    NoNewlineAppend(DONE_PREFIX, body);
  }

  /** The index of the first blank, or the length when there is none. */
  function FirstBlank(s: string): (n: nat)
    ensures n <= |s|
    ensures forall k :: 0 <= k < n ==> s[k] != ' '
    ensures n < |s| ==> s[n] == ' '
  {
    if s == [] || s[0] == ' ' then 0 else 1 + FirstBlank(s[1..])
  }

  /** Reads a "background pid is P" notice back; any other text is rejected. */
  function ParseBackgroundStarted(s: string): Option<int> {
    if |STARTED_PREFIX| < |s| && s[..|STARTED_PREFIX|] == STARTED_PREFIX && s[|s| - 1] == '\n' then
      ParseInt(s[|STARTED_PREFIX|..|s| - 1])
    else
      None
  }

  /** Reads "P is done: <status>", the part between the prefix and the newline. */
  function ParseDoneBody(body: string): Option<(int, WaitStatus)> {
    var n := FirstBlank(body);
    if n + |DONE_INFIX| <= |body| && body[n..n + |DONE_INFIX|] == DONE_INFIX then
      match (ParseInt(body[..n]), ParseStatusText(body[n + |DONE_INFIX|..]))
      case (Some(pid), Some(w)) => Some((pid, w))
      case _ => None
    else None
  }

  /** Reads a "background pid P is done: <status>" notice back into the pid
      and the status; any other text is rejected. */
  function ParseJobDone(s: string): Option<(int, WaitStatus)> {
    if |DONE_PREFIX| < |s| && s[..|DONE_PREFIX|] == DONE_PREFIX && s[|s| - 1] == '\n' then
      ParseDoneBody(s[|DONE_PREFIX|..|s| - 1])
    else
      None
  }

  /** The decimal text of a pid holds no blank. */
  lemma IntTextHasNoBlank(i: int)
    ensures forall k :: 0 <= k < |IntToString(i)| ==> IntToString(i)[k] != ' '
  {
    var s := IntToString(i);
    if i < 0 {
      forall k | 1 <= k < |s|
        ensures s[k] != ' '
      {
        assert s[k] == s[1..][k - 1];
      }
    }
  }

  /** A blank-free word followed by a blank: the first blank is right after the word. */
  lemma FirstBlankAfterWord(x: string, y: string)
    requires forall k :: 0 <= k < |x| ==> x[k] != ' '
    requires |y| >= 1 && y[0] == ' '
    ensures FirstBlank(x + y) == |x|
  {
    assert forall k :: 0 <= k < |x| ==> (x + y)[k] == x[k];
    assert (x + y)[|x|] == ' ';
  }

  lemma DoneBodyOf(pid: int, w: WaitStatus)
    ensures ParseDoneBody(IntToString(pid) + DONE_INFIX + StatusText(w)) == Some((pid, w))
  {
    IntTextHasNoBlank(pid);
    IntToStringRoundTrip(pid);
    DoneBodyParts(IntToString(pid), StatusText(w), pid, w);
  }

  /** The notice's frame: the prefix and the newline come off cleanly. */
  lemma DonePrefixParts(body: string)
    ensures ParseJobDone(DONE_PREFIX + body + "\n") == ParseDoneBody(body)
  {
    var s := DONE_PREFIX + body + "\n";
    assert s[..|DONE_PREFIX|] == DONE_PREFIX;
    assert s[|DONE_PREFIX|..|s| - 1] == body;
  }

  /** The body splits at the first blank into the pid and the status. */
  lemma DoneBodyParts(p: string, t: string, pid: int, w: WaitStatus)
    requires forall k :: 0 <= k < |p| ==> p[k] != ' '
    requires ParseInt(p) == Some(pid) && ParseStatusText(t) == Some(w)
    ensures ParseDoneBody(p + DONE_INFIX + t) == Some((pid, w))
  {
    var rest := DONE_INFIX + t;
    var body := p + rest;
    assert body == p + DONE_INFIX + t;
    var n := |p|;
    FirstBlankAfterWord(p, rest);
    assert body[..n] == p;
    assert body[n..n + |DONE_INFIX|] == DONE_INFIX;
    assert body[n + |DONE_INFIX|..] == t;
  }
}

=== FILE: parser.dfy ===
// parse_input: from the line fgets returned to a struct command_line.
//
// The line is cut at its first NUL (what the C string sees), split by
// strtok on space and newline, and the words are read left to right:
// "<" and ">" take the next word as a redirection target, "&" sets the
// background flag, anything else is appended to argv. The model splits
// the reading into two steps, grouping the words into items and folding
// the items into a command, and proves the imperative loop equal to it.

module Parser {
  import opened ShellTypes

  // ---------------------------------------------------------------------
  // Splitting the line into words
  // ---------------------------------------------------------------------

  /** The strtok delimiter set " \n". */
  predicate IsDelimiter(c: char) {
    c == ' ' || c == '\n'
  }

  /** What strtok can hand back: a non-empty run free of delimiters. */
  predicate IsWord(w: string) {
    |w| > 0 && forall k :: 0 <= k < |w| ==> !IsDelimiter(w[k])
  }

  predicate AllWords(ws: seq<string>) {
    forall k :: 0 <= k < |ws| ==> IsWord(ws[k])
  }

  /** The C string held in the buffer: everything before the first NUL. */
  function CString(buf: string): (s: string)
    ensures |s| <= |buf| && s == buf[..|s|]
    ensures forall k :: 0 <= k < |s| ==> s[k] != '\0'
    ensures |s| < |buf| ==> buf[|s|] == '\0'
  {
    if buf == [] || buf[0] == '\0' then [] else [buf[0]] + CString(buf[1..])
  }

  /** Length of the leading run of non-delimiters. */
  function WordLength(s: string): (n: nat)
    ensures n <= |s|
    ensures forall k :: 0 <= k < n ==> !IsDelimiter(s[k])
    ensures n < |s| ==> IsDelimiter(s[n])
  {
    if s == [] || IsDelimiter(s[0]) then 0 else 1 + WordLength(s[1..])
  }

  /** The words successive strtok(…, " \n") calls return, in order. */
  function Tokens(s: string): (toks: seq<string>)
    ensures AllWords(toks)
    decreases |s|
  {
    if s == [] then []
    else if IsDelimiter(s[0]) then Tokens(s[1..])
    else
      var n := WordLength(s);
      [s[..n]] + Tokens(s[n..])
  }

  /** The line with every delimiter deleted. */
  function Strip(s: string): string {
    if s == [] then [] else (if IsDelimiter(s[0]) then [] else [s[0]]) + Strip(s[1..])
  }

  function Concat(ws: seq<string>): string {
    if ws == [] then [] else ws[0] + Concat(ws[1..])
  }

  /** Words joined by single spaces, as a user types them. */
  function Unwords(ws: seq<string>): string {
    if |ws| == 0 then [] else if |ws| == 1 then ws[0] else ws[0] + " " + Unwords(ws[1..])
  }

  lemma {:induction false} StripAppend(a: string, b: string)
    ensures Strip(a + b) == Strip(a) + Strip(b)
    decreases |a|
  {
    if a != [] {
      assert (a + b)[0] == a[0];
      assert (a + b)[1..] == a[1..] + b;
      StripAppend(a[1..], b);
    } else {
      assert a + b == b;
    }
  }

  lemma {:induction false} StripWord(w: string)
    requires forall k :: 0 <= k < |w| ==> !IsDelimiter(w[k])
    ensures Strip(w) == w
    decreases |w|
  {
    if w != [] {
      StripWord(w[1..]);
    }
  }

  /** Tokenizing drops the delimiters and nothing else: the words, glued
      back together, are the line minus its spaces and newlines. */
  lemma {:induction false} TokensKeepText(s: string)
    ensures Concat(Tokens(s)) == Strip(s)
    decreases |s|
  {
    if s != [] {
      if IsDelimiter(s[0]) {
        TokensKeepText(s[1..]);
      } else {
        var n := WordLength(s);
        assert s == s[..n] + s[n..];
        TokensKeepText(s[n..]);
        StripAppend(s[..n], s[n..]);
        StripWord(s[..n]);
        assert ([s[..n]] + Tokens(s[n..]))[1..] == Tokens(s[n..]);
      }
    }
  }

  /** A word followed by the end of the line or by a delimiter is read as one token. */
  lemma TokensAfterWord(w: string, t: string)
    requires IsWord(w)
    requires t == [] || IsDelimiter(t[0])
    ensures Tokens(w + t) == [w] + Tokens(t)
  {
    var s := w + t;
    var n := WordLength(s);
    assert forall k :: 0 <= k < |w| ==> s[k] == w[k];
    assert t != [] ==> s[|w|] == t[0];
    assert n == |w|;
    assert s[..n] == w;
    assert s[n..] == t;
  }

  /** Splitting what the user typed gives back the words typed, whatever follows after a delimiter. */
  lemma {:induction false} TokensOfUnwords(ws: seq<string>, t: string)
    requires AllWords(ws)
    requires t == [] || IsDelimiter(t[0])
    ensures Tokens(Unwords(ws) + t) == ws + Tokens(t)
    decreases |ws|
  {
    if |ws| == 0 {
      assert Unwords(ws) + t == t;
    } else if |ws| == 1 {
      TokensAfterWord(ws[0], t);
    } else {
      assert AllWords(ws[1..]) by {
        assert forall k :: 0 <= k < |ws[1..]| ==> ws[1..][k] == ws[k + 1];
      }
      TokensOfUnwords(ws[1..], t);
      UnwordsStep(ws, t);
    }
  }

  /** The inductive step: the first word, then the rest as already read. */
  lemma UnwordsStep(ws: seq<string>, t: string)
    requires |ws| >= 2 && IsWord(ws[0])
    requires Tokens(Unwords(ws[1..]) + t) == ws[1..] + Tokens(t)
    ensures Tokens(Unwords(ws) + t) == ws + Tokens(t)
  {
    var u := Unwords(ws[1..]);
    WordThenRest(ws[0], u, t, ws[1..]);
    assert Unwords(ws) + t == ws[0] + (" " + (u + t)) by {
      UnwordsCons(ws);
    }
    assert ws == [ws[0]] + ws[1..];
  }

  /** A word, a blank, then text whose tokens are known. */
  lemma WordThenRest(w: string, u: string, t: string, tail: seq<string>)
    requires IsWord(w)
    requires Tokens(u + t) == tail + Tokens(t)
    ensures Tokens(w + (" " + (u + t))) == [w] + tail + Tokens(t)
  {
    var rest := " " + (u + t);
    TokensAfterWord(w, rest);
    TokensSkipDelimiter(rest);
    assert rest[1..] == u + t;
  }

  lemma UnwordsCons(ws: seq<string>)
    requires |ws| >= 2
    ensures Unwords(ws) == ws[0] + " " + Unwords(ws[1..])
  {
  }

  lemma TokensSkipDelimiter(s: string)
    requires |s| >= 1 && IsDelimiter(s[0])
    ensures Tokens(s) == Tokens(s[1..])
  {
  }

  /** A line of nothing but spaces and newlines holds no word. */
  lemma {:induction false} DelimitersOnly(s: string)
    requires forall k :: 0 <= k < |s| ==> IsDelimiter(s[k])
    ensures Tokens(s) == []
    decreases |s|
  {
    if s != [] {
      DelimitersOnly(s[1..]);
    }
  }

  // ---------------------------------------------------------------------
  // Reading the words: grouping into items
  // ---------------------------------------------------------------------

  datatype Direction = In | Out

  /** One step of the reading loop: a plain word, an operator with its
      target word, or the background marker. */
  datatype Item = Word(word: string) | Redirect(dir: Direction, path: string) | Background

  predicate IsOperator(t: string) {
    t == "<" || t == ">" || t == "&"
  }

  predicate IsRedirect(item: Item, dir: Direction) {
    item.Redirect? && item.dir == dir
  }

  /** No plain word of the items could have been read as an operator. */
  predicate PlainWords(items: seq<Item>) {
    forall k :: 0 <= k < |items| && items[k].Word? ==> !IsOperator(items[k].word)
  }

  /** Every "<" and ">" the reading meets has a word after it. The C code
      hands strtok's NULL to strdup otherwise, so callers must ensure it. */
  predicate OperandsPresent(toks: seq<string>)
    decreases |toks|
  {
    if toks == [] then true
    else if toks[0] == "<" || toks[0] == ">" then |toks| >= 2 && OperandsPresent(toks[2..])
    else OperandsPresent(toks[1..])
  }

  /** The reading of the token loop, one item per iteration. */
  function Group(toks: seq<string>): (items: seq<Item>)
    requires OperandsPresent(toks)
    ensures PlainWords(items)
    decreases |toks|
  {
    if toks == [] then []
    else if toks[0] == "<" then [Redirect(In, toks[1])] + Group(toks[2..])
    else if toks[0] == ">" then [Redirect(Out, toks[1])] + Group(toks[2..])
    else if toks[0] == "&" then [Background] + Group(toks[1..])
    else [Word(toks[0])] + Group(toks[1..])
  }

  /** The words an item was read from. */
  function Spell(item: Item): seq<string> {
    match item
    case Word(w) => [w]
    case Redirect(In, p) => ["<", p]
    case Redirect(Out, p) => [">", p]
    case Background => ["&"]
  }

  function SpellAll(items: seq<Item>): seq<string> {
    if items == [] then [] else Spell(items[0]) + SpellAll(items[1..])
  }

  /** Grouping loses no word and reorders nothing. */
  lemma {:induction false} SpellGroup(toks: seq<string>)
    requires OperandsPresent(toks)
    ensures SpellAll(Group(toks)) == toks
    decreases |toks|
  {
    if toks != [] {
      var items := Group(toks);
      if toks[0] == "<" || toks[0] == ">" {
        SpellGroup(toks[2..]);
        assert items[1..] == Group(toks[2..]);
        assert toks == toks[..2] + toks[2..];
      } else {
        SpellGroup(toks[1..]);
        assert items[1..] == Group(toks[1..]);
        assert toks == [toks[0]] + toks[1..];
      }
    }
  }

  /** Grouping is the only reading of its words: any items whose plain
      words are not operators are read back exactly. */
  lemma {:induction false} GroupSpell(items: seq<Item>)
    requires PlainWords(items)
    ensures OperandsPresent(SpellAll(items)) && Group(SpellAll(items)) == items
    decreases |items|
  {
    if items != [] {
      assert PlainWords(items[1..]) by {
        forall k | 0 <= k < |items[1..]| && items[1..][k].Word?
          ensures !IsOperator(items[1..][k].word)
        {
          assert items[1..][k] == items[k + 1];
        }
      }
      GroupSpell(items[1..]);
      assert items[0].Word? ==> !IsOperator(items[0].word);
      GroupCons(items[0], SpellAll(items[1..]));
      assert items == [items[0]] + items[1..];
    }
  }

  /** Reading one item's words ahead of any well-formed rest yields that item first. */
  lemma GroupCons(x: Item, rest: seq<string>)
    requires x.Word? ==> !IsOperator(x.word)
    requires OperandsPresent(rest)
    ensures OperandsPresent(Spell(x) + rest) && Group(Spell(x) + rest) == [x] + Group(rest)
  {
    var toks := Spell(x) + rest;
    if x.Redirect? {
      assert toks[2..] == rest;
    } else {
      assert toks[1..] == rest;
    }
  }

  // ---------------------------------------------------------------------
  // Building the command from the items
  // ---------------------------------------------------------------------

  /** The effect of one loop iteration on the command being filled. */
  function Apply(cmd: Command, item: Item): Command {
    match item
    case Word(w) => cmd.(argv := cmd.argv + [w])
    case Redirect(In, p) => cmd.(inputFile := Some(p))
    case Redirect(Out, p) => cmd.(outputFile := Some(p))
    case Background => cmd.(isBg := true)
  }

  /** The loop over all items, left to right. */
  function Fold(items: seq<Item>, cmd: Command): Command
    decreases |items|
  {
    if items == [] then cmd else Fold(items[1..], Apply(cmd, items[0]))
  }

  /** The plain words among the items, in order. */
  function Words(items: seq<Item>): seq<string> {
    if items == [] then []
    else
      var last := items[|items| - 1];
      Words(items[..|items| - 1]) + (if last.Word? then [last.word] else [])
  }

  /** No item redirects in the given direction. */
  predicate NoRedirect(items: seq<Item>, dir: Direction) {
    forall k :: 0 <= k < |items| ==> !IsRedirect(items[k], dir)
  }

  /** Item k redirects in the given direction to path, and no later item does. */
  predicate LastAt(items: seq<Item>, dir: Direction, k: int, path: string) {
    && 0 <= k < |items| && items[k] == Redirect(dir, path)
    && forall j :: k < j < |items| ==> !IsRedirect(items[j], dir)
  }

  /** The target of the last redirection in the given direction, if any. */
  function LastRedirect(items: seq<Item>, dir: Direction): (r: Option<string>)
    ensures r.None? <==> NoRedirect(items, dir)
    ensures r.Some? ==> exists k :: LastAt(items, dir, k, r.value)
  {
    if items == [] then None
    else
      var init := items[..|items| - 1];
      var last := items[|items| - 1];
      if IsRedirect(last, dir) then
        assert LastAt(items, dir, |items| - 1, last.path);
        Some(last.path)
      else
        var r := LastRedirect(init, dir);
        ExtendPastOther(init, last, dir);
        assert items == init + [last];
        r
  }

  /** Reading an item that does not redirect in this direction changes
      neither "no redirection" nor which one is last. */
  lemma ExtendPastOther(init: seq<Item>, x: Item, dir: Direction)
    requires !IsRedirect(x, dir)
    ensures NoRedirect(init + [x], dir) <==> NoRedirect(init, dir)
    ensures forall k, p :: LastAt(init, dir, k, p) ==> LastAt(init + [x], dir, k, p)
  {
    var items := init + [x];
    assert forall k :: 0 <= k < |init| ==> items[k] == init[k];
    assert items[|init|] == x;
  }

  lemma {:induction false} FoldSnoc(items: seq<Item>, x: Item, acc: Command)
    ensures Fold(items + [x], acc) == Apply(Fold(items, acc), x)
    decreases |items|
  {
    if items != [] {
      assert (items + [x])[1..] == items[1..] + [x];
      FoldSnoc(items[1..], x, Apply(acc, items[0]));
    }
  }

  /** What the loop leaves in each field, for any starting command. */
  lemma {:induction false} FoldFields(items: seq<Item>, acc: Command)
    ensures Fold(items, acc).argv == acc.argv + Words(items)
    ensures Fold(items, acc).inputFile ==
      (if LastRedirect(items, In).Some? then LastRedirect(items, In) else acc.inputFile)
    ensures Fold(items, acc).outputFile ==
      (if LastRedirect(items, Out).Some? then LastRedirect(items, Out) else acc.outputFile)
    ensures Fold(items, acc).isBg == (acc.isBg || Background in items)
    decreases |items|
  {
    if items != [] {
      var init := items[..|items| - 1];
      var x := items[|items| - 1];
      assert items == init + [x];
      FoldSnoc(init, x, acc);
      FoldFields(init, acc);
      SnocFields(init, x);
    }
  }

  /** How each field's description changes when one item is read last. */
  lemma SnocFields(init: seq<Item>, x: Item)
    ensures Words(init + [x]) == Words(init) + (if x.Word? then [x.word] else [])
    ensures LastRedirect(init + [x], In) == if IsRedirect(x, In) then Some(x.path) else LastRedirect(init, In)
    ensures LastRedirect(init + [x], Out) == if IsRedirect(x, Out) then Some(x.path) else LastRedirect(init, Out)
    ensures (Background in init + [x]) <==> (Background in init || x == Background)
  {
    assert (init + [x])[..|init|] == init;
  }

  /** The command the loop builds from scratch: argv holds the plain words
      in order, each redirection target is the last one given, and the
      background flag is set exactly when "&" was read as an operator. */
  function Build(items: seq<Item>): (cmd: Command)
    ensures cmd.argv == Words(items)
    ensures cmd.inputFile == LastRedirect(items, In)
    ensures cmd.outputFile == LastRedirect(items, Out)
    ensures cmd.isBg <==> Background in items
  {
    FoldFields(items, EMPTY_COMMAND);
    Fold(items, EMPTY_COMMAND)
  }

  /** A line without operators: every word goes to argv, in order. */
  lemma {:induction false} PlainTokens(toks: seq<string>, acc: Command)
    requires forall k :: 0 <= k < |toks| ==> !IsOperator(toks[k])
    ensures OperandsPresent(toks) && Fold(Group(toks), acc) == acc.(argv := acc.argv + toks)
    decreases |toks|
  {
    if toks == [] {
      assert acc.argv + toks == acc.argv;
    } else {
      var tail := toks[1..];
      var next := Apply(acc, Word(toks[0]));
      assert forall k :: 0 <= k < |tail| ==> !IsOperator(tail[k]) by {
        assert forall k :: 0 <= k < |tail| ==> tail[k] == toks[k + 1];
      }
      PlainTokens(tail, next);
      PlainStep(toks, acc);
    }
  }

  /** The inductive step: the first word is appended, then the rest as already read. */
  lemma PlainStep(toks: seq<string>, acc: Command)
    requires |toks| >= 1 && !IsOperator(toks[0]) && OperandsPresent(toks[1..])
    requires var next := Apply(acc, Word(toks[0]));
      Fold(Group(toks[1..]), next) == next.(argv := next.argv + toks[1..])
    ensures OperandsPresent(toks) && Fold(Group(toks), acc) == acc.(argv := acc.argv + toks)
  {
    var next := Apply(acc, Word(toks[0]));
    var rest := Group(toks[1..]);
    assert OperandsPresent(toks) && Group(toks) == [Word(toks[0])] + rest by {
      GroupPlainWord(toks);
    }
    assert Fold(Group(toks), acc) == Fold(rest, next) by {
      FoldCons(Word(toks[0]), rest, acc);
    }
    assert next.argv + toks[1..] == acc.argv + toks by {
      ArgvAppend(acc.argv, toks);
    }
  }

  lemma ArgvAppend(argv: seq<string>, toks: seq<string>)
    requires |toks| >= 1
    ensures (argv + [toks[0]]) + toks[1..] == argv + toks
  {
    assert toks == [toks[0]] + toks[1..];
  }

  /** A plain first word becomes a Word item ahead of the rest. */
  lemma GroupPlainWord(toks: seq<string>)
    requires |toks| >= 1 && !IsOperator(toks[0]) && OperandsPresent(toks[1..])
    ensures OperandsPresent(toks) && Group(toks) == [Word(toks[0])] + Group(toks[1..])
  {
  }

  lemma FoldCons(x: Item, rest: seq<Item>, acc: Command)
    ensures Fold([x] + rest, acc) == Fold(rest, Apply(acc, x))
  {
    assert ([x] + rest)[1..] == rest;
  }

  // ---------------------------------------------------------------------
  // parse_input
  // ---------------------------------------------------------------------

  /** What the caller must guarantee about the words: operators have their
      operand, and the plain words fit in argv[MAX_ARGS + 1] with its NULL. */
  predicate WellFormed(toks: seq<string>) {
    OperandsPresent(toks) && |Words(Group(toks))| <= MAX_ARGS
  }

  /** The token loop of parse_input, as written: one strtok word per
      iteration, a second one consumed after "<" or ">". */
  method ScanTokens(toks: seq<string>) returns (cmd: Command)
    requires WellFormed(toks)
    ensures cmd == Build(Group(toks))
    ensures cmd.Argc() <= MAX_ARGS
  {
    cmd := EMPTY_COMMAND;
    var i := 0;
    while i < |toks|
      invariant i <= |toks|
      invariant OperandsPresent(toks[i..])
      invariant Fold(Group(toks[i..]), cmd) == Fold(Group(toks), EMPTY_COMMAND)
      decreases |toks| - i
    {
      assert toks[i..][1..] == toks[i + 1..];
      if toks[i] == "<" {
        assert toks[i..][2..] == toks[i + 2..];
        cmd := cmd.(inputFile := Some(toks[i + 1]));
        i := i + 2;
      } else if toks[i] == ">" {
        assert toks[i..][2..] == toks[i + 2..];
        cmd := cmd.(outputFile := Some(toks[i + 1]));
        i := i + 2;
      } else if toks[i] == "&" {
        cmd := cmd.(isBg := true);
        i := i + 1;
      } else {
        cmd := cmd.(argv := cmd.argv + [toks[i]]);
        i := i + 1;
      }
    }
    assert toks[i..] == [];
  }

  datatype ParseOutcome = EndOfInput | Skipped | Parsed(cmd: Command)

  /** A comment or empty line: the first character of the buffer is '#' or a newline. */
  predicate IsSkipped(buf: string) {
    |buf| > 0 && (buf[0] == '#' || buf[0] == '\n')
  }

  /** The words the reading loop sees for a line. */
  function LineTokens(buf: string): seq<string> {
    Tokens(CString(buf))
  }

  /** The line is one parse_input can read without undefined behaviour. */
  predicate Parsable(line: Option<string>) {
    line.Some? && !IsSkipped(line.value) ==> WellFormed(LineTokens(line.value))
  }

  /** parse_input: end of input (fgets returned NULL), a skipped line, or a command. */
  function ParseInput(line: Option<string>): (r: ParseOutcome)
    requires Parsable(line)
    ensures r.EndOfInput? <==> line.None?
    ensures r.Skipped? <==> line.Some? && IsSkipped(line.value)
    ensures r.Parsed? ==> r.cmd.Argc() <= MAX_ARGS
  {
    match line
    case None => EndOfInput
    case Some(buf) =>
      if IsSkipped(buf) then Skipped else Parsed(Build(Group(LineTokens(buf))))
  }

  /** The vector execvp receives: argv[0..argc) followed by the NULL at argv[argc]. */
  function ExecArgv(cmd: Command): (v: seq<Option<string>>)
    requires cmd.Argc() <= MAX_ARGS
    ensures |v| == cmd.Argc() + 1 <= MAX_ARGS + 1
    ensures v[cmd.Argc()] == None
    ensures forall k :: 0 <= k < cmd.Argc() ==> v[k] == Some(cmd.argv[k])
  {
    seq(|cmd.argv|, k requires 0 <= k < |cmd.argv| => Some(cmd.argv[k])) + [None]
  }

  /** A line of plain words typed with single spaces and ended by a newline
      parses to exactly those words, in order, in the foreground. */
  lemma TypedWords(ws: seq<string>)
    requires 1 <= |ws| <= MAX_ARGS
    requires AllWords(ws)
    requires forall k :: 0 <= k < |ws| ==> !IsOperator(ws[k]) && '\0' !in ws[k]
    requires ws[0][0] != '#'
    ensures Parsable(Some(Unwords(ws) + "\n"))
    ensures ParseInput(Some(Unwords(ws) + "\n")) == Parsed(Command(ws, None, None, false))
  {
    var line := Unwords(ws) + "\n";
    UnwordsHasNoNul(ws);
    assert '\0' !in line;
    NulFreeCString(line);
    TokensOfUnwords(ws, "\n");
    DelimitersOnly("\n");
    assert LineTokens(line) == ws;
    UnwordsStart(ws);
    assert !IsSkipped(line);
    PlainTokens(ws, EMPTY_COMMAND);
    var cmd := Build(Group(ws));
    assert cmd == Command(ws, None, None, false);
    assert |Words(Group(ws))| == |ws|;
  }

  lemma {:induction false} UnwordsHasNoNul(ws: seq<string>)
    requires forall k :: 0 <= k < |ws| ==> '\0' !in ws[k]
    ensures '\0' !in Unwords(ws)
    decreases |ws|
  {
    if |ws| >= 2 {
      UnwordsHasNoNul(ws[1..]);
    }
  }

  lemma UnwordsStart(ws: seq<string>)
    requires |ws| >= 1 && |ws[0]| >= 1
    ensures |Unwords(ws)| >= 1 && Unwords(ws)[0] == ws[0][0]
  {
  }

  lemma {:induction false} NulFreeCString(s: string)
    requires '\0' !in s
    ensures CString(s) == s
    decreases |s|
  {
    if s != [] {
      NulFreeCString(s[1..]);
      assert s == [s[0]] + s[1..];
    }
  }

  /** A line that starts with a space is not filtered: if it holds only
      spaces and newlines it yields a command with no words at all. */
  lemma BlankButNotSkipped(buf: string)
    requires |buf| >= 1 && buf[0] == ' '
    requires forall k :: 0 <= k < |buf| ==> IsDelimiter(buf[k])
    ensures Parsable(Some(buf))
    ensures ParseInput(Some(buf)) == Parsed(EMPTY_COMMAND)
  {
    NulFreeCString(buf);
    DelimitersOnly(buf);
  }
}

=== FILE: shell.dfy ===
// The interpreter loop of main (smallsh.c and villafla_assignment4.c):
// reap finished background jobs, prompt and read a line, try the
// built-ins, otherwise launch. Signals are taken between iterations, so a
// session is a sequence of events: a line with what the system reports
// while handling it, a SIGTSTP or a SIGINT.

module Shell {
  import opened ShellTypes
  import opened Messages
  import opened Jobs
  import opened Parser
  import opened Builtins
  import opened Launcher
  import Signals

  /** The shell exits (with its code, the pids sent SIGTERM and the text
      written) or carries on with a new state and the text written. */
  datatype StepResult =
    | Terminated(code: int, signalled: seq<int>, output: string)
    | Continued(state: ShellState, output: string)

  /** What the outside world answers during one iteration: the line fgets
      reads (None at end of input), the non-blocking wait for each pid, HOME,
      whether chdir succeeds, what fork returns and how a waited-for
      foreground child ends. */
  datatype World = World(
    line: Option<string>,
    poll: int -> Poll,
    home: Option<string>,
    chdir: string -> bool,
    fork: Fork,
    child: WaitStatus)

  /** The job table after the iteration's reap pass. */
  function AfterReap(st: ShellState, w: World): ShellState
    requires ValidTable(st.table)
  {
    st.(table := ReapPass(st.table, w.poll).table)
  }

  /** The line names an external command (not exit, cd or status). */
  predicate External(cmd: Command) {
    cmd.Argc() == 0 || !IsBuiltinName(cmd.argv[0])
  }

  /** The line names the exit built-in. */
  predicate ExitRequested(cmd: Command) {
    cmd.Argc() > 0 && cmd.argv[0] == "exit"
  }

  /** What the C program needs to stay within its arrays: the line fits
      argv, and a background launch finds a free slot in bg_pids after the
      reap pass. */
  predicate Defined(st: ShellState, w: World)
    requires ValidTable(st.table)
  {
    && Parsable(w.line)
    && match ParseInput(w.line)
       case Parsed(cmd) =>
         External(cmd) && w.fork.Forked? && RunsInBackground(st, cmd) ==>
           ReapPass(st.table, w.poll).table.count < MAX_ARGS
       case _ => true
  }

  /** The line starts a background job: an external command, a successful
      fork, and `&` not cancelled by foreground-only mode. */
  predicate StartsJob(st: ShellState, w: World)
    requires Parsable(w.line)
  {
    && ParseInput(w.line).Parsed?
    && External(ParseInput(w.line).cmd)
    && w.fork.Forked?
    && RunsInBackground(st, ParseInput(w.line).cmd)
  }

  /** The line launches a child and the shell waits for it: an external
      command, a successful fork, and no background run. */
  predicate WaitsForChild(st: ShellState, w: World)
    requires Parsable(w.line)
  {
    && ParseInput(w.line).Parsed?
    && External(ParseInput(w.line).cmd)
    && w.fork.Forked?
    && !RunsInBackground(st, ParseInput(w.line).cmd)
  }

  /** One iteration of the while loop. */
  function Iteration(draft: Draft, st: ShellState, w: World): (r: StepResult)
    requires ValidTable(st.table) && Defined(st, w)
    ensures r.Continued? ==> ValidTable(r.state.table) && r.state.fgOnly == st.fgOnly
    ensures r.Terminated? <==>
      || w.line.None?
      || (ParseInput(w.line).Parsed? && ExitRequested(ParseInput(w.line).cmd))
      || (ParseInput(w.line).Parsed? && External(ParseInput(w.line).cmd) && w.fork.ForkFailed?)
    ensures r.Terminated? && w.line.None? ==> r.code == 0 && r.signalled == []
    ensures r.Continued? ==>
      Live(r.state.table) == Live(ReapPass(st.table, w.poll).table) + (if StartsJob(st, w) then [w.fork.pid] else [])
  {
    var pass := ReapPass(st.table, w.poll);
    ReapPassFacts(st.table, w.poll);
    var st1 := st.(table := pass.table);
    var out := Reports(pass.reaped) + PROMPT;
    match ParseInput(w.line)
    case EndOfInput => Terminated(0, [], out + "\n")
    case Skipped => Continued(st1, out)
    case Parsed(cmd) =>
      match RunBuiltin(draft, st1, cmd, w.home, w.chdir)
      case ExitShell(code, killed) => Terminated(code, killed, out)
      case ChangeDir(_, _, _) => Continued(st1, out)
      case ReportStatus(text) => Continued(st1, out + text)
      case NotBuiltin =>
        match Launch(draft, st1, cmd, w.fork, w.child)
        case ForkAbort(code) => Terminated(code, [], out)
        case Launched(st2, _, text) => Continued(st2, out + text)
  }

  /** Every iteration writes the reports of the jobs it reaped first, then
      the prompt, before anything the command itself prints. */
  lemma ReportsPrecedePrompt(draft: Draft, st: ShellState, w: World)
    requires ValidTable(st.table) && Defined(st, w)
    ensures var head := Reports(ReapPass(st.table, w.poll).reaped) + PROMPT;
      var r := Iteration(draft, st, w);
      |r.output| >= |head| && r.output[..|head|] == head
  {
  }

  /** End of input ends the shell with status 0 after a newline, killing nothing. */
  lemma EndOfInputExits(draft: Draft, st: ShellState, w: World)
    requires ValidTable(st.table) && Defined(st, w) && w.line.None?
    ensures var r := Iteration(draft, st, w);
      && r == Terminated(0, [], Reports(ReapPass(st.table, w.poll).reaped) + PROMPT + "\n")
  {
  }

  /** A comment or empty line only reaps: the state after it is the state
      after the reap pass, and nothing but reports and the prompt is written. */
  lemma SkippedLineOnlyReaps(draft: Draft, st: ShellState, w: World)
    requires ValidTable(st.table) && Defined(st, w)
    requires w.line.Some? && IsSkipped(w.line.value)
    ensures Iteration(draft, st, w) == Continued(AfterReap(st, w), Reports(ReapPass(st.table, w.poll).reaped) + PROMPT)
  {
  }

  /** The last status after a line is the waited-for child's exactly when
      the line launched a foreground child, and is kept otherwise. `exit`
      ends the shell with 0; a failed fork ends it with 1, signalling no job. */
  lemma IterationStatus(draft: Draft, st: ShellState, w: World)
    requires ValidTable(st.table) && Defined(st, w)
    ensures var r := Iteration(draft, st, w);
      && (r.Continued? ==> r.state.lastStatus == (if WaitsForChild(st, w) then w.child else st.lastStatus))
      && (r.Terminated? && ParseInput(w.line).Parsed? && ExitRequested(ParseInput(w.line).cmd) ==>
            r.code == EXIT_SUCCESS)
      && (r.Terminated? && ParseInput(w.line).Parsed? && !ExitRequested(ParseInput(w.line).cmd) ==>
            r.code == FORK_FAILURE_CODE && r.signalled == [])
  {
  }

  /** The text before the command's own output: the reports of the jobs
      the pass reaped, then the prompt. */
  function Head(st: ShellState, w: World): string
    requires ValidTable(st.table)
  {
    Reports(ReapPass(st.table, w.poll).reaped) + PROMPT
  }

  /** A `status` line writes the report of the last foreground status
      after the prompt and changes nothing but the reaped table. */
  lemma StatusLinePrintsStatus(draft: Draft, st: ShellState, w: World)
    requires ValidTable(st.table) && Defined(st, w)
    requires ParseInput(w.line).Parsed? && ParseInput(w.line).cmd.Argc() > 0
    requires ParseInput(w.line).cmd.argv[0] == "status"
    ensures Iteration(draft, st, w) == Continued(AfterReap(st, w), Head(st, w) + StatusText(st.lastStatus) + "\n")
  {
  }

  /** A `cd` line writes nothing after the prompt (the failure message goes
      to stderr) and changes nothing but the reaped table. */
  lemma CdLineWritesNothing(draft: Draft, st: ShellState, w: World)
    requires ValidTable(st.table) && Defined(st, w)
    requires ParseInput(w.line).Parsed? && ParseInput(w.line).cmd.Argc() > 0
    requires ParseInput(w.line).cmd.argv[0] == "cd"
    ensures Iteration(draft, st, w) == Continued(AfterReap(st, w), Head(st, w))
  {
  }

  /** `exit` and a failed fork write nothing after the prompt. */
  lemma ExitWritesNothing(draft: Draft, st: ShellState, w: World)
    requires ValidTable(st.table) && Defined(st, w)
    ensures var r := Iteration(draft, st, w);
      r.Terminated? && w.line.Some? ==> r.output == Head(st, w)
  {
  }

  /** A launched command writes, after the prompt, the background notice for
      a background child; for a foreground child nothing, except that the
      single-file draft reports a signal death at once. */
  lemma LaunchOutput(draft: Draft, st: ShellState, w: World)
    requires ValidTable(st.table) && Defined(st, w)
    requires ParseInput(w.line).Parsed? && External(ParseInput(w.line).cmd) && w.fork.Forked?
    ensures var r := Iteration(draft, st, w);
      && r.Continued?
      && r.output == Head(st, w) +
        if RunsInBackground(st, ParseInput(w.line).cmd) then BackgroundStarted(w.fork.pid)
        else if draft == SingleFile && w.child.Signaled? then StatusText(w.child) + "\n"
        else []
  {
  }

  /** A foreground command whose child ends with c, then `status`: the
      second line writes exactly the report of c after its prompt. */
  lemma ForegroundThenStatus(draft: Draft, st: ShellState, w1: World, w2: World)
    requires ValidTable(st.table) && Parsable(w1.line) && Parsable(w2.line)
    requires WaitsForChild(st, w1)
    requires ParseInput(w2.line).Parsed? && ParseInput(w2.line).cmd.Argc() > 0
    requires ParseInput(w2.line).cmd.argv[0] == "status"
    ensures SessionDefined(draft, st, [Line(w1), Line(w2)])
    ensures var first := Iteration(draft, st, w1);
      && first.Continued?
      && Run(draft, st, [Line(w1), Line(w2)])
        == Continued(AfterReap(first.state, w2),
                     first.output + (Head(first.state, w2) + StatusText(w1.child) + "\n"))
  {
    assert Defined(st, w1);
    var first := Iteration(draft, st, w1);
    IterationStatus(draft, st, w1);
    assert first.Continued? && first.state.lastStatus == w1.child && ValidTable(first.state.table);
    assert Defined(first.state, w2) by {
      assert !External(ParseInput(w2.line).cmd);
    }
    StatusLinePrintsStatus(draft, first.state, w2);
    assert Deliver(draft, st, Line(w1)) == first;
    assert Deliver(draft, first.state, Line(w2)) == Iteration(draft, first.state, w2);
    RunTwoEvents(draft, st, Line(w1), Line(w2));
  }

  /** `exit` in the split draft sends SIGTERM to every job the reap pass left,
      so every job in the table when `exit` is read is, exactly once, either
      reported by that line's reap or signalled. */
  lemma ExitAccountsForEveryJob(st: ShellState, w: World)
    requires ValidTable(st.table) && Defined(st, w)
    requires ParseInput(w.line).Parsed? && ExitRequested(ParseInput(w.line).cmd)
    ensures var r := Iteration(Modular, st, w);
      && r.Terminated? && r.code == 0
      && multiset(r.signalled) + multiset(Pids(ReapPass(st.table, w.poll).reaped)) == multiset(Live(st.table))
  {
    ReapPassFacts(st.table, w.poll);
  }

  /** The single-file draft's `exit` leaves its background jobs running. */
  lemma SingleFileExitKillsNothing(st: ShellState, w: World)
    requires ValidTable(st.table) && Defined(st, w)
    requires ParseInput(w.line).Parsed? && ExitRequested(ParseInput(w.line).cmd)
    ensures var r := Iteration(SingleFile, st, w);
      r.Terminated? && r.code == 0 && r.signalled == []
  {
  }

  /** The job table changes only by the reap pass and one launched child:
      the jobs after the iteration plus those reaped are the jobs before,
      plus the new pid when the command went to the background. */
  lemma IterationJobs(draft: Draft, st: ShellState, w: World)
    requires ValidTable(st.table) && Defined(st, w)
    ensures var r := Iteration(draft, st, w);
      r.Continued? ==>
        multiset(Live(r.state.table)) + multiset(Pids(ReapPass(st.table, w.poll).reaped))
          == multiset(Live(st.table)) + (if StartsJob(st, w) then multiset{w.fork.pid} else multiset{})
  {
    var r := Iteration(draft, st, w);
    ReapPassFacts(st.table, w.poll);
    if r.Continued? {
      var left := Live(ReapPass(st.table, w.poll).table);
      var added := if StartsJob(st, w) then [w.fork.pid] else [];
      assert multiset(left + added) == multiset(left) + multiset(added);
    }
  }

  /** In foreground-only mode an iteration never adds a job. */
  lemma ForegroundOnlyAddsNoJobs(draft: Draft, st: ShellState, w: World)
    requires ValidTable(st.table) && Defined(st, w) && st.fgOnly != 0
    ensures var r := Iteration(draft, st, w);
      r.Continued? ==> multiset(Live(r.state.table)) <= multiset(Live(st.table))
  {
    IterationJobs(draft, st, w);
    var r := Iteration(draft, st, w);
    if r.Continued? {
      var reaped := multiset(Pids(ReapPass(st.table, w.poll).reaped));
      assert multiset(Live(r.state.table)) + reaped == multiset(Live(st.table));
      assert multiset(Live(r.state.table)) <= multiset(Live(r.state.table)) + reaped;
    }
  }

  /** A session event: an input line with the world's answers, or a signal
      taken between lines. */
  datatype Event = Line(world: World) | Stop | Interrupt

  /** What an event demands of the state it arrives in. */
  predicate EventDefined(st: ShellState, e: Event)
    requires ValidTable(st.table)
  {
    e.Line? ==> Defined(st, e.world)
  }

  /** One event: a line runs an iteration; SIGTSTP toggles the mode and
      writes its notice; SIGINT redraws the prompt. */
  function Deliver(draft: Draft, st: ShellState, e: Event): (r: StepResult)
    requires ValidTable(st.table) && EventDefined(st, e)
    ensures r.Continued? ==> ValidTable(r.state.table)
    ensures r.Continued? ==> r.state.fgOnly == (if e.Stop? then Signals.OnStop(st.fgOnly).mode else st.fgOnly)
    ensures r.Terminated? ==> e.Line?
  {
    match e
    case Line(w) => Iteration(draft, st, w)
    case Stop =>
      var t := Signals.OnStop(st.fgOnly);
      Continued(st.(fgOnly := t.mode), t.message)
    case Interrupt =>
      var (st', text) := Signals.OnInterrupt(st);
      Continued(st', text)
  }

  /** Every event of the session is defined in the state it meets, up to
      the point where the shell exits. */
  predicate SessionDefined(draft: Draft, st: ShellState, events: seq<Event>)
    requires ValidTable(st.table)
    decreases |events|
  {
    events == [] ||
      (EventDefined(st, events[0]) &&
        match Deliver(draft, st, events[0])
        case Continued(st', _) => SessionDefined(draft, st', events[1..])
        case Terminated(_, _, _) => true)
  }

  /** A session: the events in order, the output accumulated; after the
      shell exits the remaining events have no effect. */
  function Run(draft: Draft, st: ShellState, events: seq<Event>): (r: StepResult)
    requires ValidTable(st.table) && SessionDefined(draft, st, events)
    ensures r.Continued? ==> ValidTable(r.state.table)
    decreases |events|
  {
    if events == [] then Continued(st, [])
    else
      match Deliver(draft, st, events[0])
      case Terminated(code, killed, out) => Terminated(code, killed, out)
      case Continued(st', out) =>
        match Run(draft, st', events[1..])
        case Terminated(code, killed, more) => Terminated(code, killed, out + more)
        case Continued(st'', more) => Continued(st'', out + more)
  }

  /** A session that carries on carried on after its first event, and ends
      where the rest of the session, run from there, ends. */
  lemma RunCons(draft: Draft, st: ShellState, events: seq<Event>)
    requires ValidTable(st.table) && SessionDefined(draft, st, events) && events != []
    ensures var d := Deliver(draft, st, events[0]);
      Run(draft, st, events).Continued? ==>
        && d.Continued?
        && SessionDefined(draft, d.state, events[1..])
        && Run(draft, d.state, events[1..]).Continued?
        && Run(draft, st, events).state == Run(draft, d.state, events[1..]).state
  {
  }

  /** A session of two events, the first of which lets the shell carry on:
      the output is the first event's followed by the second's. */
  lemma RunTwoEvents(draft: Draft, st: ShellState, e1: Event, e2: Event)
    requires ValidTable(st.table) && EventDefined(st, e1)
    requires Deliver(draft, st, e1).Continued?
    requires EventDefined(Deliver(draft, st, e1).state, e2)
    ensures SessionDefined(draft, st, [e1, e2])
    ensures var d1 := Deliver(draft, st, e1);
      var d2 := Deliver(draft, d1.state, e2);
      Run(draft, st, [e1, e2]) ==
        match d2
        case Continued(st2, out2) => Continued(st2, d1.output + out2)
        case Terminated(code, killed, out2) => Terminated(code, killed, d1.output + out2)
  {
    var d1 := Deliver(draft, st, e1);
    RunSingle(draft, d1.state, e2);
    RunFirst(draft, st, e1, [e2]);
    assert [e1] + [e2] == [e1, e2];
  }

  /** A session of one event is that event. */
  lemma RunSingle(draft: Draft, st: ShellState, e: Event)
    requires ValidTable(st.table) && EventDefined(st, e)
    ensures SessionDefined(draft, st, [e])
    ensures Run(draft, st, [e]) == Deliver(draft, st, e)
  {
    assert [e][1..] == [];
    var d := Deliver(draft, st, e);
    assert d.output + [] == d.output;
  }

  /** A first event that lets the shell carry on puts its output in front
      of the rest of the session's. */
  lemma RunFirst(draft: Draft, st: ShellState, e: Event, rest: seq<Event>)
    requires ValidTable(st.table) && EventDefined(st, e)
    requires Deliver(draft, st, e).Continued?
    requires SessionDefined(draft, Deliver(draft, st, e).state, rest)
    ensures SessionDefined(draft, st, [e] + rest)
    ensures var d := Deliver(draft, st, e);
      Run(draft, st, [e] + rest) ==
        match Run(draft, d.state, rest)
        case Continued(st2, more) => Continued(st2, d.output + more)
        case Terminated(code, killed, more) => Terminated(code, killed, d.output + more)
  {
    assert ([e] + rest)[0] == e;
    assert ([e] + rest)[1..] == rest;
  }

  /** The number of SIGTSTP events among the first events of a session. */
  function StopCount(events: seq<Event>): nat {
    if events == [] then 0 else (if events[0].Stop? then 1 else 0) + StopCount(events[1..])
  }

  /** Only SIGTSTP changes foreground-only mode: at the end of a session the
      mode is the starting mode toggled once per stop signal, whatever lines
      were run in between. */
  lemma {:induction false} ModeFollowsStops(draft: Draft, st: ShellState, events: seq<Event>)
    requires ValidTable(st.table) && SessionDefined(draft, st, events)
    ensures var r := Run(draft, st, events);
      r.Continued? ==> r.state.fgOnly == Signals.Toggles(st.fgOnly, StopCount(events))
    decreases |events|
  {
    if events != [] {
      var d := Deliver(draft, st, events[0]);
      RunCons(draft, st, events);
      if d.Continued? {
        ModeFollowsStops(draft, d.state, events[1..]);
        if events[0].Stop? {
          TogglesStep(st.fgOnly, StopCount(events[1..]));
        }
      }
    }
  }

  /** Toggling once and then n times is toggling n + 1 times. */
  lemma TogglesStep(mode: int, n: nat)
    ensures Signals.Toggles(Signals.OnStop(mode).mode, n) == Signals.Toggles(mode, n + 1)
  {
  }

  /** A session in which every line is foreground-only never starts a job,
      because no line between two stop signals can change the mode. With
      the mode on from the start and no stop signal, the job table only
      shrinks. */
  lemma {:induction false} ForegroundOnlySessionAddsNoJobs(draft: Draft, st: ShellState, events: seq<Event>)
    requires ValidTable(st.table) && SessionDefined(draft, st, events)
    requires st.fgOnly != 0 && StopCount(events) == 0
    ensures var r := Run(draft, st, events);
      r.Continued? ==> multiset(Live(r.state.table)) <= multiset(Live(st.table))
    decreases |events|
  {
    if events != [] {
      var d := Deliver(draft, st, events[0]);
      RunCons(draft, st, events);
      if d.Continued? {
        if events[0].Line? {
          ForegroundOnlyAddsNoJobs(draft, st, events[0].world);
        }
        ForegroundOnlySessionAddsNoJobs(draft, d.state, events[1..]);
      }
    }
  }
}

=== FILE: signals.dfy ===
// The two signal handlers: SIGTSTP toggles foreground-only mode and
// announces it, SIGINT only redraws the prompt. The handlers' writes are
// returned as strings; when a signal arrives is not modelled.

module Signals {
  import opened ShellTypes

  const ENTER_FOREGROUND_ONLY: string := "\nEntering foreground-only mode (& is now ignored)\n: "
  const EXIT_FOREGROUND_ONLY: string := "\nExiting foreground-only mode\n: "

  /** The new value of foreground_only_mode and the notice written. */
  datatype Toggled = Toggled(mode: int, message: string)

  /** The notice ends by redrawing the prompt on a fresh line. */
  predicate RedrawsPrompt(message: string) {
    |message| >= |PROMPT| + 1 && message[|message| - |PROMPT| - 1..] == "\n" + PROMPT
  }

  /** The SIGTSTP handler. The C test is on an int, so any nonzero mode counts as on. */
  function OnStop(mode: int): (r: Toggled)
    ensures r.mode == 0 || r.mode == 1
    ensures (r.mode == 1) <==> (mode == 0)
    ensures mode != 0 ==> r.message == EXIT_FOREGROUND_ONLY
    ensures mode == 0 ==> r.message == ENTER_FOREGROUND_ONLY
    ensures RedrawsPrompt(r.message)
  {
    if mode != 0 then Toggled(0, EXIT_FOREGROUND_ONLY) else Toggled(1, ENTER_FOREGROUND_ONLY)
  }

  /** The SIGINT handler: the prompt is redrawn and the state is left as it was. */
  function OnInterrupt(st: ShellState): (r: (ShellState, string))
    ensures r.0 == st
    ensures r.1 == "\n" + PROMPT && RedrawsPrompt(r.1)
  {
    (st, "\n: ")
  }

  /** The mode after n stop signals. */
  function Toggles(mode: int, n: nat): int
    decreases n
  {
    if n == 0 then mode else Toggles(OnStop(mode).mode, n - 1)
  }

  /** The handler is an involution on the two values the program uses. */
  lemma OnStopTwice(mode: int)
    ensures OnStop(OnStop(mode).mode).mode == (if mode != 0 then 1 else 0)
    ensures (mode == 0 || mode == 1) ==> OnStop(OnStop(mode).mode).mode == mode
  {
  }

  /** Under any number of stop signals the mode stays 0 or 1 and follows the
      parity of the count: an even number of signals restores the start. */
  lemma {:induction false} TogglesParity(mode: int, n: nat)
    requires mode == 0 || mode == 1
    ensures Toggles(mode, n) == 0 || Toggles(mode, n) == 1
    ensures Toggles(mode, n) == (if n % 2 == 0 then mode else 1 - mode)
    decreases n
  {
    if n > 0 {
      TogglesParity(OnStop(mode).mode, n - 1);
    }
  }

  /** Successive stop signals alternate the two notices. */
  lemma NoticesAlternate(mode: int)
    requires mode == 0 || mode == 1
    ensures OnStop(mode).message != OnStop(OnStop(mode).mode).message
  {
  }
}

=== FILE: types.dfy ===
// Data model of smallsh: the parsed command, how a child ended, the
// background job table and the state the interpreter keeps between lines.

module ShellTypes {

  /** Capacity of argv (plus one slot for the NULL terminator) and of the job table. */
  const MAX_ARGS: nat := 512

  /** The prompt marker printed before every line is read. */
  const PROMPT: string := ": "

  /** A value that may be absent: a NULL pointer, an unset variable, a rejected reading. */
  datatype Option<T> = None | Some(value: T)

  /** The two drafts of the shell found side by side in the repository:
      the split one (smallsh.c, parser.c, commands.c, signals.c) and the
      single-file assignment (villafla_assignment4.c). Where they differ,
      the operations take the draft as a parameter. */
  datatype Draft = Modular | SingleFile

  /** How a child ended, in place of the raw wait status word:
      WIFEXITED with WEXITSTATUS, or WIFSIGNALED with WTERMSIG. */
  datatype WaitStatus = Exited(code: nat) | Signaled(signal: nat)

  /** The status the shell starts with: last_exit_status = 0 reads as a normal exit with value 0. */
  const INITIAL_STATUS: WaitStatus := Exited(0)

  /** struct command_line: argv[0..argc), optional redirection targets and the
      background flag. argc is the length of argv. */
  datatype Command = Command(argv: seq<string>, inputFile: Option<string>, outputFile: Option<string>, isBg: bool)
  {
    function Argc(): nat { |argv| }
  }

  /** What calloc leaves: no words, no redirections, foreground. */
  const EMPTY_COMMAND: Command := Command([], None, None, false)

  /** The job table: the fixed array bg_pids[MAX_ARGS] and bg_count. Only
      slots[..count] are live; the slots past count hold stale values. */
  datatype Table = Table(slots: seq<int>, count: nat)

  /** The interpreter's state between lines: last_exit_status (last
      foreground child), foreground_only_mode (a C int, nonzero means on)
      and the job table. */
  datatype ShellState = ShellState(lastStatus: WaitStatus, fgOnly: int, table: Table)
}
